=== FILE: README.md ===
# Movie manager store, modelled in Dafny

This project models `MovieManager`, the in-memory movie catalogue of the
Movie Manager desktop application. The catalogue is an insertion-ordered
list of records. Each record has a title, genre, year, rating, duration and
an availability flag. The model covers:

- `createMovie`, which validates its arguments and appends a record;
- `updateMovie`, which overwrites every field but the title of the first
  record whose title matches, ignoring case;
- `deleteMovie`, which removes every matching record;
- `findMovie`, which returns the first matching record;
- `getAllMovies`, which returns a copy of the list;
- `getAverageDuration`;
- `loadFromFile`, the bulk import of comma-separated lines.

The store is a value (`MovieManager.Store`). Every mutating operation is a
pure function that returns the new store and the boolean the source returns
(`MovieManager.Response`). A Java `null` string is `Option.None`. A Java
`int` is the subset type `JavaNumbers.Int32`. A Java `double` is
`JavaNumbers.Double`: a finite real, one of the two infinities, or NaN, with
Java's comparison rules (every comparison with NaN is false).

The JDK string and number routines the code relies on are written out in
`JavaStrings` and `JavaNumbers`:

- `isBlank` and `Character.isWhitespace`;
- `trim`;
- `equalsIgnoreCase`;
- `split(",")`, which drops trailing empty pieces;
- `Integer.parseInt` and `Integer.toString`;
- `Boolean.parseBoolean` and `Boolean.toString`.

`Double.parseDouble` is a parameter of the import.

Modules:

- `Optional`: `Option` and `Result`.
- `JavaNumbers`: `Int32`, `Double`, integer parsing and formatting.
- `JavaStrings`: whitespace, trim, case-insensitive equality, comma
  splitting, boolean parsing.
- `Movies`: the record and its field constraints.
- `MovieManager`: the store and its operations.
- `MovieImport`: `loadFromFile`, both the per-line parse and the loop.
- `RatingFinding`: the rating guard as written, and create, update and the
  import built on it, next to the corrected ones.
- `Scenarios`: concrete runs of the store operations.

## Model

| member | source | states |
|---|---|---|
| MovieManager.CreateMovie | src/com/luismonserratt/moviemanager/MovieManager.java:15-22 | It succeeds exactly when the title and genre are non-null and non-blank, the year is at least 1800, the rating is a number in [0, 10] and the duration is positive. A failed call leaves the store unchanged. A successful call keeps every earlier record in place and appends exactly the new record. A store whose records are all valid stays valid. |
| Movies.ValidMovie | src/com/luismonserratt/moviemanager/MovieManager.java:16-17 | The invariant of a stored record: title and genre non-blank, year at least 1800, a rating that is a number in [0, 10], and a positive duration. It is the negation of `createMovie`'s refusal guard, with NaN refused. |
| MovieManager.Valid | src/com/luismonserratt/moviemanager/MovieManager.java:13-27 | The store invariant: every record in the list satisfies `Movies.ValidMovie`, as the guards of create and update ensure. |
| MovieManager.FirstMatch | src/com/luismonserratt/moviemanager/MovieManager.java:42-49 | The scan returns the position of the earliest record whose title equals the query ignoring case, and nothing exactly when no record matches. A null query matches nothing. |
| MovieManager.TitleMatches | src/com/luismonserratt/moviemanager/MovieManager.java:44 | `m.getTitle().equalsIgnoreCase(title)`: a record matches a query exactly when the query is not null and equals its title ignoring case; `equalsIgnoreCase(null)` is false. |
| MovieManager.FirstMatchUnique | src/com/luismonserratt/moviemanager/MovieManager.java:43-47 | At most one position is the first match, so find's answer is determined. |
| MovieManager.FindMovie | src/com/luismonserratt/moviemanager/MovieManager.java:42-49 | It returns null exactly when no title matches. Otherwise it returns the record at the first matching position. |
| MovieManager.UpdateMovie | src/com/luismonserratt/moviemanager/MovieManager.java:24-36 | It succeeds exactly when some title matches and the new genre, year, rating and duration are valid. A failure leaves the store unchanged. A success rewrites only the first matching record, keeping its title and taking every new field, and leaves every other record and the length unchanged. Validity is preserved. |
| MovieManager.RemoveMatching | src/com/luismonserratt/moviemanager/MovieManager.java:39 | The kept records are exactly the records that do not match: each kept record is from the input and does not match, and every non-matching input record is kept. The length drops exactly when something matched. |
| MovieManager.RemoveMatchingAppend | src/com/luismonserratt/moviemanager/MovieManager.java:39 | Removing matches from a concatenation removes them from each part, so the kept records stay in their relative order. |
| MovieManager.DeleteMovie | src/com/luismonserratt/moviemanager/MovieManager.java:38-40 | It returns true exactly when some title matched, and exactly when the store shrank. Afterwards no record matches. Every non-matching record is kept and nothing new appears. Validity is preserved. |
| MovieManager.DeleteKeepsOrder | src/com/luismonserratt/moviemanager/MovieManager.java:39 | Deleting from two runs of records equals deleting from each run, in order. |
| MovieManager.RemoveMatchingNone | src/com/luismonserratt/moviemanager/MovieManager.java:39 | When no title matches, `removeIf` removes nothing. |
| MovieManager.DeleteIdempotent | src/com/luismonserratt/moviemanager/MovieManager.java:38-40 | A second delete of the same title changes nothing and returns false. |
| MovieManager.CreateThenFind | src/com/luismonserratt/moviemanager/MovieManager.java:15-22 | After a successful create, find with any spelling of the title that differs only in case returns the new record, unless an earlier record already matched. In that case find returns the earlier record, because create accepts duplicates. |
| MovieManager.FirstMatchAppend | src/com/luismonserratt/moviemanager/MovieManager.java:43-48 | Appending a record changes the scan's answer only when nothing matched before and the new record matches. |
| MovieManager.UpdateThenFind | src/com/luismonserratt/moviemanager/MovieManager.java:24-36 | After a successful update, find returns the previously found record with its title kept and the new genre, year, rating, duration and availability. |
| MovieManager.DeleteThenFind | src/com/luismonserratt/moviemanager/MovieManager.java:38-49 | After a delete, find returns null for the deleted title. |
| MovieManager.GetAllMovies | src/com/luismonserratt/moviemanager/MovieManager.java:51-53 | It returns the records in insertion order, one for one. |
| MovieManager.TotalAtLeastCount | src/com/luismonserratt/moviemanager/MovieManager.java:58-60 | When every duration is positive, the summed duration is at least the number of records. |
| MovieManager.TotalDuration | src/com/luismonserratt/moviemanager/MovieManager.java:57-60 | The sum of the durations, accumulated front to back as the loop does. |
| MovieManager.AverageDuration | src/com/luismonserratt/moviemanager/MovieManager.java:55-62 | It returns 0 for an empty store. Otherwise the average times the number of records equals the summed duration. The average of a non-empty valid store is at least one minute. |
| MovieManager.QuotientAtLeastOne | src/com/luismonserratt/moviemanager/MovieManager.java:61 | Dividing a total by a positive count no larger than it gives at least one. |
| MovieManager.EmptyIsValid | src/com/luismonserratt/moviemanager/MovieManager.java:13 | The initial empty list satisfies the record invariant. |
| JavaStrings.IsWhitespace | src/com/luismonserratt/moviemanager/MovieManager.java:16 | `Character.isWhitespace`: the tab-to-carriage-return controls, U+001C to U+0020, and the Unicode space, line and paragraph separators other than the three non-breaking spaces. |
| JavaStrings.WhitespaceSet | src/com/luismonserratt/moviemanager/MovieManager.java:16 | Space, tab, line feed and U+3000 are white space. U+00A0, U+2007, U+202F, NUL and letters are not. |
| JavaStrings.IsBlank | src/com/luismonserratt/moviemanager/MovieManager.java:16 | `isBlank`: the text is empty or holds only white space. |
| JavaStrings.BlankConcat | src/com/luismonserratt/moviemanager/MovieManager.java:26 | A text is blank exactly when both of its parts are. The empty text is blank and "Dune" is not. |
| JavaStrings.BlankAsciiTrimsAway | src/com/luismonserratt/moviemanager/MovieManager.java:16 | Blank ASCII text is removed entirely by `trim`. |
| JavaStrings.SingleCharacter | src/com/luismonserratt/moviemanager/MovieManager.java:70-71 | A one-character text is blank exactly when its character is white space, and is emptied by `trim` exactly when its character is at most U+0020. |
| JavaStrings.BlankVersusTrim | src/com/luismonserratt/moviemanager/MovieManager.java:71 | The blank check of create and the empty-after-trim check of the import differ in both directions: U+3000 is white space but `trim` keeps it, and NUL is not white space but `trim` strips it. |
| JavaStrings.TrimStart | src/com/luismonserratt/moviemanager/MovieManager.java:70 | The result is a suffix of the text. Everything dropped is at most U+0020. The result does not start with such a character. |
| JavaStrings.TrimEnd | src/com/luismonserratt/moviemanager/MovieManager.java:70 | The result is a prefix of the text. Everything dropped is at most U+0020. The result does not end with such a character. |
| JavaStrings.Trim | src/com/luismonserratt/moviemanager/MovieManager.java:70 | `trim` returns a slice of the text with only characters up to U+0020 on either side, and neither end of the slice is such a character. |
| JavaStrings.TrimKeepsTrimmed | src/com/luismonserratt/moviemanager/MovieManager.java:77-82 | Text whose ends are not trimmable is returned unchanged. |
| JavaStrings.TrimIdempotent | src/com/luismonserratt/moviemanager/MovieManager.java:70 | Trimming twice is trimming once: `trim` of a trimmed text changes nothing. |
| JavaStrings.TrimEmptyIff | src/com/luismonserratt/moviemanager/MovieManager.java:70-71 | A line is skipped as empty exactly when every character is at most U+0020. |
| JavaStrings.EqualsIgnoreCase | src/com/luismonserratt/moviemanager/MovieManager.java:39 | `equalsIgnoreCase`: equal lengths, and equal characters position by position once ASCII letters are folded to lower case. A null argument is handled by the callers, which match nothing. |
| JavaStrings.EqualsIgnoreCaseIsEquivalence | src/com/luismonserratt/moviemanager/MovieManager.java:39-44 | Title matching is reflexive, symmetric and transitive. |
| JavaStrings.ParseBoolean | src/com/luismonserratt/moviemanager/MovieManager.java:82 | `Boolean.parseBoolean`: true exactly when the text equals "true" ignoring case. |
| JavaStrings.FoldsTo | src/com/luismonserratt/moviemanager/MovieManager.java:82 | A lower-case ASCII letter is the folded form of exactly itself and its upper-case form. |
| JavaStrings.ParseBooleanSpellings | src/com/luismonserratt/moviemanager/MovieManager.java:82 | `parseBoolean` is true of exactly the sixteen case spellings of "true" (four characters: t or T, r or R, u or U, e or E) and false of every other text. |
| JavaStrings.ParseFormatBoolean | src/com/luismonserratt/moviemanager/MovieManager.java:82 | Round trip: `parseBoolean` reads back what `Boolean.toString` writes. Examples: "TRUE" and "True" are true, and "yes", "1" and the empty text are false. |
| JavaStrings.SplitAll | src/com/luismonserratt/moviemanager/MovieManager.java:73 | Splitting gives at least one piece, and no piece holds a comma. |
| JavaStrings.JoinSplitAll | src/com/luismonserratt/moviemanager/MovieManager.java:73 | Joining the pieces with commas gives the text back. |
| JavaStrings.SplitAllCommaFreePrefix | src/com/luismonserratt/moviemanager/MovieManager.java:73 | Comma-free text in front of a string extends the first piece only. |
| JavaStrings.SplitAllJoin | src/com/luismonserratt/moviemanager/MovieManager.java:73 | Splitting comma-free pieces joined by commas gives the pieces back. |
| JavaStrings.DropTrailingEmpty | src/com/luismonserratt/moviemanager/MovieManager.java:73 | The result is a prefix of the pieces. Only empty pieces are dropped, and the last piece kept is not empty. |
| JavaStrings.SplitOnComma | src/com/luismonserratt/moviemanager/MovieManager.java:73 | Text without a comma is one field. Otherwise the fields are the comma-separated pieces with the trailing empty ones removed. |
| JavaStrings.SplitOnCommaJoin | src/com/luismonserratt/moviemanager/MovieManager.java:73-74 | Comma-free pieces whose last piece is non-empty split back into exactly those pieces, so six of them pass the field-count check. |
| JavaStrings.JoinAppend | src/com/luismonserratt/moviemanager/MovieManager.java:73 | Joining with one more piece appends a comma and that piece. |
| JavaStrings.TrailingCommaIgnored | src/com/luismonserratt/moviemanager/MovieManager.java:73-74 | A trailing comma after non-empty text is invisible to `split`, so a six-field line with a trailing comma is still read. |
| JavaNumbers.OrderedOutsideNaN | src/com/luismonserratt/moviemanager/MovieManager.java:17 | For every double except NaN, passing `rating < 0 \|\| rating > 10` means being a finite number in [0, 10]. |
| JavaNumbers.NaNPassesEveryBound | src/com/luismonserratt/moviemanager/MovieManager.java:17 | NaN is neither below nor above any bound. |
| JavaNumbers.Less | src/com/luismonserratt/moviemanager/MovieManager.java:17 | Java's `<` between a `double` and a bound: true only for a finite value below it or negative infinity; false for NaN. |
| JavaNumbers.Greater | src/com/luismonserratt/moviemanager/MovieManager.java:17 | Java's `>` between a `double` and a bound: true only for a finite value above it or positive infinity; false for NaN. |
| JavaNumbers.DigitChar | src/com/luismonserratt/moviemanager/MovieManager.java:79 | The character written for a digit is a decimal digit with that value. |
| JavaNumbers.SignedDecimal | src/com/luismonserratt/moviemanager/MovieManager.java:79-81 | Text is accepted as a number exactly when it is non-empty decimal digits, or a '-' or '+' followed by non-empty decimal digits. Its value is the digits' value, negated after '-'. |
| JavaNumbers.ParseInt | src/com/luismonserratt/moviemanager/MovieManager.java:79-81 | `Integer.parseInt` succeeds exactly when the text is a signed decimal within the `int` range, and returns that value. |
| JavaNumbers.FormatNatReadsBack | src/com/luismonserratt/moviemanager/MovieManager.java:79-81 | The digits written for a natural number are non-empty, all decimal, and read back as that number. |
| JavaNumbers.ParseFormatRoundTrip | src/com/luismonserratt/moviemanager/MovieManager.java:79-81 | `parseInt(toString(n)) == n` for every `int`, negative values included. |
| JavaNumbers.FormatIntShape | src/com/luismonserratt/moviemanager/MovieManager.java:79-81 | `toString` of an `int` is non-empty, uses only digits and '-', and ends in a digit. |
| JavaNumbers.ParseIntRejectsOverflow | src/com/luismonserratt/moviemanager/MovieManager.java:79 | A year one past the `int` range is refused. |
| MovieImport.TrimEach | src/com/luismonserratt/moviemanager/MovieManager.java:77-82 | Every field is replaced by its trimmed form, and the count is unchanged. |
| MovieImport.ParseLine | src/com/luismonserratt/moviemanager/MovieManager.java:70-82 | A line gives a record only when it is not empty after `trim` and splits into exactly six fields. The full meaning is stated by `MovieImport.ParseLineMeaning`. |
| MovieImport.ParseFields | src/com/luismonserratt/moviemanager/MovieManager.java:77-82 | Six trimmed fields give a record exactly when the year, rating and duration all parse. The record then holds the title and genre fields as they are, the parsed numbers, and availability true exactly when `parseBoolean` accepts the sixth field. |
| MovieImport.ParseLineMeaning | src/com/luismonserratt/moviemanager/MovieManager.java:70-82 | A blank line, or a line without exactly six fields, gives no record. A parsed record carries the trimmed title and genre and the parsed year, rating and duration. Its availability is true exactly when the trimmed sixth field is "true" in any case. A six-field line gives nothing only when a number fails to parse. |
| MovieImport.ImportLine | src/com/luismonserratt/moviemanager/MovieManager.java:76-89 | A line counts exactly when it parses to a valid record, which is then appended. Any other line changes nothing. |
| MovieImport.ImportLines | src/com/luismonserratt/moviemanager/MovieManager.java:69-91 | The count is at most the number of lines and equals the number of records added. Earlier records are kept in place. Validity is preserved. |
| MovieImport.AcceptedLine | src/com/luismonserratt/moviemanager/MovieManager.java:84-86 | A line contributes its record exactly when that record parses and is valid, and at most one record. |
| MovieImport.Accepted | src/com/luismonserratt/moviemanager/MovieManager.java:69-91 | The accepted records are at most one per line, and all are valid. |
| MovieImport.ImportAppendsAccepted | src/com/luismonserratt/moviemanager/MovieManager.java:69-91 | The import appends exactly the accepted records, in line order, and returns their number, whatever the store held before. |
| MovieImport.AcceptedComeFromLines | src/com/luismonserratt/moviemanager/MovieManager.java:69-91 | Every imported record is valid and is what some input line parses to. |
| MovieImport.AcceptedAppend | src/com/luismonserratt/moviemanager/MovieManager.java:69-90 | The accepted records of two runs of lines are those of each run, in order. |
| MovieImport.ImportConcat | src/com/luismonserratt/moviemanager/MovieManager.java:69-91 | Importing `a + b` equals importing `a` and then `b`, and the counts add up. |
| MovieImport.SkippedLineChangesNothing | src/com/luismonserratt/moviemanager/MovieManager.java:71-89 | A line that does not parse is skipped with no effect on the store or the count. |
| MovieImport.LoadFromFile | src/com/luismonserratt/moviemanager/MovieManager.java:64-92 | An unreadable source is an error. Otherwise the store gains exactly the accepted records, the returned count is their number (at most one per line), and validity is preserved. |
| MovieImport.FormatFields | src/com/luismonserratt/moviemanager/MovieManager.java:73-74 | A record is written as exactly six fields. |
| MovieImport.FormattedIntField | src/com/luismonserratt/moviemanager/MovieManager.java:79-81 | A written integer holds no comma and nothing `trim` strips. |
| MovieImport.FormatLineSplits | src/com/luismonserratt/moviemanager/MovieManager.java:70-74 | For a record whose title is non-empty, comma-free and has no character `trim` strips at either end, and whose genre and rating text are comma-free, the written line is non-empty, is unchanged by `trim`, and splits back into its six fields. |
| MovieImport.FormattedLineEnds | src/com/luismonserratt/moviemanager/MovieManager.java:70 | For a record whose title is non-empty and has no character `trim` strips at either end, the written line is non-empty and neither of its ends is stripped by `trim`: it starts with the title and ends with the availability word. |
| MovieImport.ParseFormatLine | src/com/luismonserratt/moviemanager/MovieManager.java:70-82 | Round trip: a record with a non-empty title, whose title, genre and rating text hold no comma and have no character `trim` strips at either end (none at most U+0020), written with a rating text that `parseDouble` reads as its rating, parses back to the same record. |
| MovieImport.ParseTrimmedLine | src/com/luismonserratt/moviemanager/MovieManager.java:70-82 | A non-empty line that `trim` leaves alone, and that splits into six fields `trim` also leaves alone, parses exactly as those six fields do. |
| MovieImport.FormatFieldsCommaFree | src/com/luismonserratt/moviemanager/MovieManager.java:73 | No written field holds a comma when the title, genre and rating text hold none. |
| MovieImport.FormatFieldsTight | src/com/luismonserratt/moviemanager/MovieManager.java:77-82 | When the title, genre and rating text have no character `trim` strips at either end, no written field has anything for `trim` to strip. |
| MovieImport.TrimEachKeepsTight | src/com/luismonserratt/moviemanager/MovieManager.java:77-82 | Fields that `trim` leaves alone come back whole. |
| MovieImport.ParseFormattedFields | src/com/luismonserratt/moviemanager/MovieManager.java:77-82 | The six written fields parse back to the record. |
| RatingFinding.GuardsAgreeOutsideNaN | src/com/luismonserratt/moviemanager/MovieManager.java:17 | For every rating except NaN, the guard as written and the corrected range check agree. |
| RatingFinding.GuardAsWritten | src/com/luismonserratt/moviemanager/MovieManager.java:17 | The negation of `rating < 0 \|\| rating > 10` as written, which NaN passes. |
| RatingFinding.CreateMovieAsWritten | src/com/luismonserratt/moviemanager/MovieManager.java:15-22 | `createMovie` with its guard as written. It succeeds exactly when the null, blank, year, rating-comparison and duration checks pass, which admits NaN. Otherwise it behaves like `CreateMovie`. |
| RatingFinding.UpdateMovieAsWritten | src/com/luismonserratt/moviemanager/MovieManager.java:24-36 | `updateMovie` with its guard as written, NaN admitted. Otherwise it behaves like `UpdateMovie`. |
| RatingFinding.CreateAsWrittenAdmitsNaN | src/com/luismonserratt/moviemanager/MovieManager.java:16-20 | Counterexample: creating "Dune" with rating NaN succeeds as written and leaves a record outside [0, 10]. The corrected create refuses it. |
| RatingFinding.UpdateAsWrittenAdmitsNaN | src/com/luismonserratt/moviemanager/MovieManager.java:26-32 | Counterexample: as written, updating any matched record of a valid store with rating NaN succeeds and makes the store invalid. The corrected update refuses it. |
| RatingFinding.CreateAgreesOutsideNaN | src/com/luismonserratt/moviemanager/MovieManager.java:15-22 | For every rating except NaN, the corrected create equals the create as written. |
| RatingFinding.UpdateAgreesOutsideNaN | src/com/luismonserratt/moviemanager/MovieManager.java:24-36 | For every rating except NaN, the corrected update equals the update as written. |
| RatingFinding.ValidDetailsAsWritten | src/com/luismonserratt/moviemanager/MovieManager.java:26-27 | The checks `updateMovie` as written makes of the new fields, with the NaN loophole. |
| RatingFinding.ValidFieldsAsWritten | src/com/luismonserratt/moviemanager/MovieManager.java:16-17 | The checks `createMovie` as written makes of its arguments, with the NaN loophole. |
| RatingFinding.ValidMovieAsWritten | src/com/luismonserratt/moviemanager/MovieManager.java:16-17 | The record checks of `createMovie` as written, with the NaN loophole. |
| RatingFinding.ImportLineAsWritten | src/com/luismonserratt/moviemanager/MovieManager.java:76-89 | One import step as written. A line counts exactly when it parses to a record that passes the checks as written, which is then appended. Any other line changes nothing. |
| RatingFinding.ImportLinesAsWritten | src/com/luismonserratt/moviemanager/MovieManager.java:69-91 | The import loop as written. The count is at most the number of lines and equals the number of records added, and earlier records are kept. |
| RatingFinding.LoadFromFileAsWritten | src/com/luismonserratt/moviemanager/MovieManager.java:64-92 | `loadFromFile` as written. An unreadable source is an error. Otherwise the store keeps its records and gains one per counted line. |
| RatingFinding.ImportAsWrittenCountsNaN | src/com/luismonserratt/moviemanager/MovieManager.java:80-86 | Counterexample: a line whose record is valid except for a NaN rating is imported and counted as written, and leaves the store invalid. The corrected import skips it and counts nothing. |
| RatingFinding.ImportLinesAgreeOutsideNaN | src/com/luismonserratt/moviemanager/MovieManager.java:69-91 | When no line parses to a NaN rating, the import as written and the corrected import give the same store and count. |
| Scenarios.CreateThenFindOtherCase | src/com/luismonserratt/moviemanager/MovieManager.java:15-49 | Creating "Dune" succeeds, and `findMovie("dune")` returns it. |
| Scenarios.CreateRefusals | src/com/luismonserratt/moviemanager/MovieManager.java:16-18 | A blank or null title, an empty genre, year 1799, rating 10.5 or -0.5, and duration 0 are each refused without changing the store. |
| Scenarios.DuplicatesUpdateFirstDeleteAll | src/com/luismonserratt/moviemanager/MovieManager.java:24-40 | With two records titled "Dune", an update of "DUNE" changes only the first, and a delete of "DUNE" removes both. |
| Scenarios.UpdateRefusals | src/com/luismonserratt/moviemanager/MovieManager.java:24-29 | Updating an absent title, updating with year 1799, or updating a null title returns false and changes nothing. |
| Scenarios.DeleteOtherCase | src/com/luismonserratt/moviemanager/MovieManager.java:38-40 | Deleting "DUNE" removes "Dune" and keeps "Matrix". Deleting an absent title returns false. |
| Scenarios.AverageExample | src/com/luismonserratt/moviemanager/MovieManager.java:55-62 | Durations 100 and 150 average to 125, and an empty store averages 0. |
| Scenarios.SamplesValid | src/com/luismonserratt/moviemanager/MovieManager.java:16-17 | The sample records "Dune" and "Matrix" pass the field checks, and "Dune" dated 1700 does not. |
| Scenarios.ImportFourLines | src/com/luismonserratt/moviemanager/MovieManager.java:69-91 | With any parser that reads four lines as a good record, nothing, a record dated 1700 and another good record, the import adds the two good records in file order and returns 2. |
| Scenarios.SampleTextsTight | src/com/luismonserratt/moviemanager/MovieManager.java:73-82 | The sample titles, genre and rating texts hold no comma and nothing `trim` strips. |
| Scenarios.JoinThree | src/com/luismonserratt/moviemanager/MovieManager.java:73 | Three pieces joined with commas are the pieces with a comma between each pair. |
| Scenarios.ThreeFieldLineSkipped | src/com/luismonserratt/moviemanager/MovieManager.java:73-74 | A line of three comma-free fields, with nothing for `trim` to strip at its ends, fails the field-count check and contributes nothing. |
| Scenarios.AcceptedOfFour | src/com/luismonserratt/moviemanager/MovieManager.java:69-91 | When four lines are accepted, skipped, skipped and accepted, the accepted records are the first and the last, in that order. |
| Scenarios.WrittenLineOutcome | src/com/luismonserratt/moviemanager/MovieManager.java:70-86 | A record written as a line, under the round-trip conditions, is accepted exactly when it is valid, and then contributes itself. |
| Scenarios.FourLinesAccepted | src/com/luismonserratt/moviemanager/MovieManager.java:69-91 | With the real line parser, a file of a valid record, a three-field line, a record from before 1800 and another valid record accepts exactly the two valid records, in file order. Each record must be written under the round-trip conditions of `MovieImport.ParseFormatLine` (`ReadsBack`), and the three fields must be comma-free with nothing `trim` strips at the line's two ends. |
| Scenarios.LoadFourWrittenLines | src/com/luismonserratt/moviemanager/MovieManager.java:64-92 | Under the same conditions (each written record meets `ReadsBack`, the three-field line is comma-free with tight ends), loading that file into an empty store gives exactly the two valid records and the count 2. |
| Scenarios.LoadSampleFile | src/com/luismonserratt/moviemanager/MovieManager.java:64-92 | The concrete file ("Dune" rated 8.0, the line BadLine,OnlyThreeFields,1999, "Dune" dated 1700, "Matrix" rated 8.7) loads "Dune" and "Matrix" and returns 2, for any `parseDouble` that reads "8.0" and "8.7". |

## Left out

- Opening and reading the file (`File`, `Scanner`) are not modelled. The import takes the lines already read (`Some(lines)`). A file that cannot be opened is `None` and gives `SourceUnavailable`, which stands for the `FileNotFoundException` thrown before anything is added.
- The way `Scanner.nextLine` breaks text into lines is not modelled; lines arrive already split.
- `Double.parseDouble` is not modelled. Parsing floating-point text is out of scope, so the import takes it as a parameter that returns `None` where Java throws.
- MovieManager.AverageDuration: the result is the exact rational quotient, not the rounded `double` of the source. The sum of `int` durations as `double`s is exact for any realistic store, so only the final division's rounding is lost.
- JavaStrings.EqualsIgnoreCase: only ASCII letters are folded. Java's `equalsIgnoreCase` also folds non-ASCII letters (for example 'É' and 'é'), so titles that differ only in the case of non-ASCII letters do not match in the model.
- JavaNumbers.ParseInt: only ASCII digits are accepted. `Integer.parseInt` also accepts other Unicode decimal digits, for example Arabic-Indic digits.
- `Movie.java` is not part of this model. The record is taken to be a plain holder whose getters return what its constructor and setters stored. `toString` and the GUI (`MovieManagerGUI`) are not modelled.
- MovieManager.GetAllMovies: the source copies the list but shares the `Movie` objects, and `findMovie` (MovieManager.FindMovie) returns the live `Movie` itself. A later `updateMovie` mutates those objects in place, so it also shows through a list or a record returned earlier. The model copies values, so a snapshot never changes afterwards. A caller might expect an independent snapshot, but the code shares the `Movie` objects. The model has no object identity, so it cannot express that sharing.
- Concurrency is not modelled. The source is single-threaded and unsynchronised.

## Findings

| source | as written | input that shows it | evidently intended | confidence | as-written member | corrected member |
|---|---|---|---|---|---|---|
| src/com/luismonserratt/moviemanager/MovieManager.java:17 and :27 | `rating < 0 \|\| rating > 10` rejects a rating outside [0, 10], but every comparison with NaN is false, so NaN passes the guard | `createMovie("Dune", "Sci-Fi", 1984, Double.NaN, 137, true)` returns true. Likewise, the import line `Dune,Sci-Fi,1984,NaN,137,true` is imported, since `Double.parseDouble("NaN")` succeeds | Only ratings in [0, 10] are accepted, so NaN is refused (for example `!(rating >= 0 && rating <= 10)`) | high; not executed | RatingFinding.CreateMovieAsWritten, RatingFinding.UpdateMovieAsWritten, RatingFinding.ImportLineAsWritten, RatingFinding.LoadFromFileAsWritten, RatingFinding.CreateAsWrittenAdmitsNaN, RatingFinding.UpdateAsWrittenAdmitsNaN, RatingFinding.ImportAsWrittenCountsNaN | MovieManager.CreateMovie, MovieManager.UpdateMovie, MovieImport.ImportLine, MovieImport.LoadFromFile |

=== FILE: java_numbers.dfy ===
/** The parts of Java's numeric types the movie store relies on: the 32-bit
    `int`, the comparisons of a `double` against a constant, and
    `Integer.parseInt` / `Integer.toString` on decimal text. */
module JavaNumbers {
  import opened Optional

  const MinInt32: int := -0x8000_0000
  const MaxInt32: int := 0x7fff_ffff

  /** A Java `int`. */
  type Int32 = x: int | MinInt32 <= x <= MaxInt32

  /** A Java `double`, kept only as far as comparisons can tell values
      apart: a finite value (rounding is not modelled), the two infinities
      and NaN. */
  datatype Double = Finite(value: real) | PositiveInfinity | NegativeInfinity | NaN

  /** Java's `d < c` for a finite constant `c`; every comparison with NaN is false. */
  predicate Less(d: Double, c: real)
  {
    match d
    case Finite(v) => v < c
    case NegativeInfinity => true
    case PositiveInfinity => false
    case NaN => false
  }

  /** Java's `d > c` for a finite constant `c`; every comparison with NaN is false. */
  predicate Greater(d: Double, c: real)
  {
    match d
    case Finite(v) => v > c
    case NegativeInfinity => false
    case PositiveInfinity => true
    case NaN => false
  }

  /** Outside NaN, `d < c` and `d > c` are the strict order of the extended
      reals: a non-NaN double lies within `[lo, hi]` exactly when it is a
      finite value between the bounds. */
  lemma OrderedOutsideNaN(d: Double, lo: real, hi: real)
    requires d != NaN
    ensures (!Less(d, lo) && !Greater(d, hi)) <==> (d.Finite? && lo <= d.value <= hi)
  {
  }

  /** NaN slips past every pair of bound checks. */
  lemma NaNPassesEveryBound(lo: real, hi: real)
    ensures !Less(NaN, lo) && !Greater(NaN, hi)
  {
  }

  // ---------------------------------------------------------------------
  // Decimal text

  predicate IsDigit(c: char)
  {
    '0' <= c <= '9'
  }

  predicate AllDigits(s: string)
  {
    forall i :: 0 <= i < |s| ==> IsDigit(s[i])
  }

  function DigitValue(c: char): (d: nat)
    requires IsDigit(c)
    ensures d < 10
  {
    (c as int) - ('0' as int)
  }

  function DigitChar(d: nat): (c: char)
    requires d < 10
    ensures IsDigit(c) && DigitValue(c) == d
  {
    (('0' as int) + d) as char
  }

  /** The value of a string of decimal digits, most significant first. */
  function DigitsValue(s: string): nat
    requires AllDigits(s)
  {
    if |s| == 0 then 0 else DigitsValue(s[..|s| - 1]) * 10 + DigitValue(s[|s| - 1])
  }

  /** `Integer.toString` for a non-negative value. */
  function FormatNat(n: nat): (s: string)
    decreases n
  {
    if n < 10 then [DigitChar(n)] else FormatNat(n / 10) + [DigitChar(n % 10)]
  }

  /** `Integer.toString`: a minus sign for negative values, then the digits. */
  function FormatInt(n: int): string
  {
    if n < 0 then "-" + FormatNat(-n) else FormatNat(n)
  }

  /** The signed magnitude written by `s`, if `s` is an optional `+` or `-`
      followed by at least one decimal digit. */
  function SignedDecimal(s: string): (r: Option<int>)
    ensures r.Some? ==> |s| > 0
    ensures r.Some? && AllDigits(s) ==> r.value == DigitsValue(s)
    ensures r.Some? && !AllDigits(s) ==> |s| > 1 && (s[0] == '-' || s[0] == '+') && AllDigits(s[1..])
    ensures |s| > 0 && AllDigits(s) ==> r == Some(DigitsValue(s))
    ensures |s| > 1 && (s[0] == '-' || s[0] == '+') && AllDigits(s[1..]) ==> r.Some?
    ensures r.Some? && s[0] == '-' ==> |s| > 1 && AllDigits(s[1..]) && r.value + DigitsValue(s[1..]) == 0
    ensures r.Some? && s[0] == '+' ==> |s| > 1 && AllDigits(s[1..]) && r.value == DigitsValue(s[1..])
  {
    if |s| == 0 then None
    else if s[0] == '-' || s[0] == '+' then
      var digits := s[1..];
      if |digits| == 0 || !AllDigits(digits) then None
      else
        var magnitude: int := DigitsValue(digits);
        Some(if s[0] == '-' then -magnitude else magnitude)
    else if AllDigits(s) then Some(DigitsValue(s))
    else None
  }

  /** `Integer.parseInt(s)` with radix 10: an optional sign, one or more
      decimal digits, and a value that fits in an `int`; any other text is
      the `NumberFormatException` case, `None`. Digits outside ASCII are
      not accepted here. */
  function ParseInt(s: string): (r: Option<Int32>)
    ensures r.Some? <==> SignedDecimal(s).Some? && MinInt32 <= SignedDecimal(s).value <= MaxInt32
    ensures r.Some? ==> r.value == SignedDecimal(s).value
    ensures r.Some? ==> |s| > 0 && (IsDigit(s[0]) || s[0] == '-' || s[0] == '+') && forall i :: 0 < i < |s| ==> IsDigit(s[i])
  {
    match SignedDecimal(s)
    case None => None
    case Some(v) => if MinInt32 <= v <= MaxInt32 then Some(v) else None
  }

  /** The digits `FormatNat` writes read back as the number written. */
  lemma {:induction false} FormatNatReadsBack(n: nat)
    ensures |FormatNat(n)| > 0
    ensures AllDigits(FormatNat(n))
    ensures DigitsValue(FormatNat(n)) == n
    decreases n
  {
    if n >= 10 {
      FormatNatReadsBack(n / 10);
      var s := FormatNat(n);
      var prefix := FormatNat(n / 10);
      assert s == prefix + [DigitChar(n % 10)];
      assert s[..|s| - 1] == prefix;
    }
  }

  /** Round trip: `Integer.parseInt(Integer.toString(n)) == n` for every `int`. */
  lemma ParseFormatRoundTrip(n: Int32)
    ensures ParseInt(FormatInt(n)) == Some(n)
  {
    var m: int := n;
    if m < 0 {
      FormatNatReadsBack(-m);
      var s := FormatInt(m);
      assert s[1..] == FormatNat(-m);
    } else {
      FormatNatReadsBack(n);
      assert IsDigit(FormatNat(n)[0]);
    }
  }

  /** `Integer.toString` writes a non-empty run of digits, preceded by a
      minus sign for negative values: no comma, nothing `trim` would strip. */
  lemma FormatIntShape(n: int)
    ensures |FormatInt(n)| > 0
    ensures forall i :: 0 <= i < |FormatInt(n)| ==> IsDigit(FormatInt(n)[i]) || FormatInt(n)[i] == '-'
    ensures IsDigit(FormatInt(n)[|FormatInt(n)| - 1])
  {
    if n < 0 {
      FormatNatReadsBack(-n);
    } else {
      FormatNatReadsBack(n);
    }
  }

  /** `Integer.parseInt` refuses a value one beyond the `int` range. */
  lemma ParseIntRejectsOverflow()
    ensures ParseInt(FormatNat(MaxInt32 + 1)) == None
  {
    FormatNatReadsBack(MaxInt32 + 1);
    assert IsDigit(FormatNat(MaxInt32 + 1)[0]);
  }
}

=== FILE: java_strings.dfy ===
/** The `java.lang.String` and `java.lang.Boolean` operations the movie
    store relies on: `isBlank`, `isEmpty`, `trim`, `equalsIgnoreCase`,
    `split(",")` and `Boolean.parseBoolean`. Strings are sequences of
    Unicode scalar values; case folding covers ASCII letters only. */
module JavaStrings {

  // ---------------------------------------------------------------------
  // Blank text

  /** `Character.isWhitespace`: the ASCII separators and controls
      U+0009..U+000D, U+001C..U+0020, and the Unicode space, line and
      paragraph separators other than the non-breaking ones
      (U+00A0, U+2007, U+202F). */
  predicate IsWhitespace(c: char)
  {
    || '\t' <= c <= '\r'
    || '\U{001C}' <= c <= ' '
    || c == '\U{1680}'
    || '\U{2000}' <= c <= '\U{2006}'
    || '\U{2008}' <= c <= '\U{200A}'
    || c == '\U{2028}' || c == '\U{2029}'
    || c == '\U{205F}' || c == '\U{3000}'
  }

  /** `String.isBlank`: empty, or white space only. */
  predicate IsBlank(s: string)
  {
    forall i :: 0 <= i < |s| ==> IsWhitespace(s[i])
  }

  /** Which characters are white space: the ordinary and ideographic
      spaces, tab and line feed are; the three non-breaking spaces, NUL and
      letters are not. */
  lemma WhitespaceSet()
    ensures IsWhitespace(' ') && IsWhitespace('\t') && IsWhitespace('\n') && IsWhitespace('\U{3000}')
    ensures !IsWhitespace('\U{00A0}') && !IsWhitespace('\U{2007}') && !IsWhitespace('\U{202F}')
    ensures !IsWhitespace('\0') && !IsWhitespace('a')
  {
  }

  /** A text is blank exactly when both of its parts are; in particular
      the empty text is blank and a text with a letter is not. */
  lemma {:induction false} BlankConcat(a: string, b: string)
    ensures IsBlank(a + b) <==> IsBlank(a) && IsBlank(b)
    ensures IsBlank("") && !IsBlank("Dune")
  {
    if IsBlank(a + b) {
      forall i | 0 <= i < |a| ensures IsWhitespace(a[i]) {
        assert (a + b)[i] == a[i];
      }
      forall i | 0 <= i < |b| ensures IsWhitespace(b[i]) {
        assert (a + b)[|a| + i] == b[i];
      }
    }
    assert !IsWhitespace("Dune"[0]);
  }

  // ---------------------------------------------------------------------
  // Trimming

  /** The characters `String.trim` strips: every code point up to U+0020,
      which includes control characters that are not white space. */
  predicate Trimmable(c: char)
  {
    c <= ' '
  }

  /** `s` with its leading trimmable characters removed. */
  function TrimStart(s: string): (r: string)
    ensures |r| <= |s| && r == s[|s| - |r|..]
    ensures forall k :: 0 <= k < |s| - |r| ==> Trimmable(s[k])
    ensures |r| > 0 ==> !Trimmable(r[0])
    decreases |s|
  {
    if |s| > 0 && Trimmable(s[0]) then TrimStart(s[1..]) else s
  }

  /** `s` with its trailing trimmable characters removed. */
  function TrimEnd(s: string): (r: string)
    ensures |r| <= |s| && r == s[..|r|]
    ensures forall k :: |r| <= k < |s| ==> Trimmable(s[k])
    ensures |r| > 0 ==> !Trimmable(r[|r| - 1])
    decreases |s|
  {
    if |s| > 0 && Trimmable(s[|s| - 1]) then TrimEnd(s[..|s| - 1]) else s
  }

  /** `r` is the slice of `s` starting at `i` with only trimmable
      characters before and after it. */
  ghost predicate SliceAmidTrimmable(s: string, r: string, i: int)
  {
    && 0 <= i && i + |r| <= |s|
    && r == s[i..i + |r|]
    && (forall k :: 0 <= k < i ==> Trimmable(s[k]))
    && (forall k :: i + |r| <= k < |s| ==> Trimmable(s[k]))
  }

  /** `String.trim`: the longest run of `s` that neither starts nor ends
      with a character up to U+0020. */
  function Trim(s: string): (r: string)
    ensures exists i :: SliceAmidTrimmable(s, r, i)
    ensures |r| > 0 ==> !Trimmable(r[0]) && !Trimmable(r[|r| - 1])
  {
    var front := TrimStart(s);
    var r := TrimEnd(front);
    assert SliceAmidTrimmable(s, r, |s| - |front|);
    r
  }

  /** Text whose two ends are not trimmable comes back from `trim` unchanged. */
  lemma TrimKeepsTrimmed(s: string)
    requires |s| > 0 ==> !Trimmable(s[0]) && !Trimmable(s[|s| - 1])
    ensures Trim(s) == s
  {
    var i :| SliceAmidTrimmable(s, Trim(s), i);
    if |s| > 0 {
      assert i == 0;
      assert |Trim(s)| == |s|;
    }
  }

  /** Trimming twice is trimming once. */
  lemma TrimIdempotent(s: string)
    ensures Trim(Trim(s)) == Trim(s)
  {
    TrimKeepsTrimmed(Trim(s));
  }

  /** `trim` yields the empty string exactly when every character of `s`
      is trimmable. */
  lemma TrimEmptyIff(s: string)
    ensures Trim(s) == "" <==> forall k :: 0 <= k < |s| ==> Trimmable(s[k])
  {
    var i :| SliceAmidTrimmable(s, Trim(s), i);
  }

  /** Blank ASCII text is trimmed away: every ASCII white-space character
      is one `trim` strips. */
  lemma BlankAsciiTrimsAway(s: string)
    ensures (forall k :: 0 <= k < |s| ==> s[k] < '\U{0080}') && IsBlank(s) ==> Trim(s) == ""
  {
    TrimEmptyIff(s);
  }

  /** A one-character text is blank exactly when the character is white
      space, and trimmed away exactly when `trim` strips the character. */
  lemma SingleCharacter(c: char)
    ensures IsBlank([c]) <==> IsWhitespace(c)
    ensures Trim([c]) == "" <==> Trimmable(c)
  {
    TrimEmptyIff([c]);
  }

  /** Beyond ASCII, `isBlank` and `trim().isEmpty()` part in both
      directions: by `SingleCharacter`, the text U+3000 is blank yet
      survives `trim`, and the text NUL is trimmed away yet is not blank. */
  lemma BlankVersusTrim()
    ensures IsWhitespace('\U{3000}') && !Trimmable('\U{3000}')
    ensures !IsWhitespace('\0') && Trimmable('\0')
  {
  }

  // ---------------------------------------------------------------------
  // Case-insensitive comparison

  /** Lower-case form of an ASCII upper-case letter; every other character
      is left as it is. */
  function ToLowerAscii(c: char): char
  {
    if 'A' <= c <= 'Z' then ((c as int) + 32) as char else c
  }

  /** `String.equalsIgnoreCase` against a non-null argument: equal lengths
      and equal characters position by position once letters are folded. */
  predicate EqualsIgnoreCase(a: string, b: string)
  {
    && |a| == |b|
    && forall i :: 0 <= i < |a| ==> ToLowerAscii(a[i]) == ToLowerAscii(b[i])
  }

  /** `equalsIgnoreCase` is an equivalence relation, so "the records whose
      title matches" does not depend on which matching spelling is asked for. */
  lemma EqualsIgnoreCaseIsEquivalence(a: string, b: string, c: string)
    ensures EqualsIgnoreCase(a, a)
    ensures EqualsIgnoreCase(a, b) ==> EqualsIgnoreCase(b, a)
    ensures EqualsIgnoreCase(a, b) && EqualsIgnoreCase(b, c) ==> EqualsIgnoreCase(a, c)
  {
  }

  /** `Boolean.parseBoolean(s)`, i.e. `"true".equalsIgnoreCase(s)`. */
  predicate ParseBoolean(s: string)
  {
    EqualsIgnoreCase("true", s)
  }

  /** `Boolean.toString`. */
  function FormatBoolean(b: bool): string
  {
    if b then "true" else "false"
  }

  /** Round trip: `Boolean.parseBoolean(Boolean.toString(b)) == b`; and any
      spelling of "true" in any case reads as true. */
  lemma ParseFormatBoolean(b: bool)
    ensures ParseBoolean(FormatBoolean(b)) == b
    ensures ParseBoolean("TRUE") && ParseBoolean("True")
    ensures !ParseBoolean("yes") && !ParseBoolean("1") && !ParseBoolean("")
  {
  }

  /** A lower-case ASCII letter is the fold of exactly two characters:
      itself and its upper-case form. */
  lemma FoldsTo(c: char, lower: char)
    requires 'a' <= lower <= 'z'
    ensures ToLowerAscii(c) == lower <==> c == lower || c as int == lower as int - 32
  {
  }

  /** `parseBoolean` is true of exactly the sixteen case spellings of
      "true", and false of every other text. */
  lemma {:induction false} ParseBooleanSpellings(s: string)
    ensures ParseBoolean(s) <==> && |s| == 4
                                 && (s[0] == 't' || s[0] == 'T')
                                 && (s[1] == 'r' || s[1] == 'R')
                                 && (s[2] == 'u' || s[2] == 'U')
                                 && (s[3] == 'e' || s[3] == 'E')
  {
    if |s| == 4 {
      FoldsTo(s[0], 't');
      FoldsTo(s[1], 'r');
      FoldsTo(s[2], 'u');
      FoldsTo(s[3], 'e');
      assert "true"[0] == 't' && "true"[1] == 'r' && "true"[2] == 'u' && "true"[3] == 'e';
      assert ParseBoolean(s) <==> forall i :: 0 <= i < 4 ==> ToLowerAscii("true"[i]) == ToLowerAscii(s[i]);
    }
  }

  // ---------------------------------------------------------------------
  // Splitting on a comma

  predicate CommaFree(s: string)
  {
    forall i :: 0 <= i < |s| ==> s[i] != ','
  }

  /** Every comma-separated piece of `s`, empty ones included: one more
      piece than `s` has commas. */
  function SplitAll(s: string): (pieces: seq<string>)
    ensures |pieces| >= 1
    ensures forall k :: 0 <= k < |pieces| ==> CommaFree(pieces[k])
    decreases |s|
  {
    if |s| == 0 then [""]
    else
      var rest := SplitAll(s[1..]);
      if s[0] == ',' then [""] + rest
      else [[s[0]] + rest[0]] + rest[1..]
  }

  /** The pieces written back with a comma between consecutive pieces. */
  function Join(pieces: seq<string>): string
    requires |pieces| >= 1
    decreases |pieces|
  {
    if |pieces| == 1 then pieces[0] else pieces[0] + "," + Join(pieces[1..])
  }

  /** Round trip: joining the pieces gives the text back. */
  lemma {:induction false} JoinSplitAll(s: string)
    ensures Join(SplitAll(s)) == s
    decreases |s|
  {
    if |s| > 0 {
      var rest := SplitAll(s[1..]);
      JoinSplitAll(s[1..]);
      if s[0] == ',' {
        assert ([""] + rest)[1..] == rest;
      } else if |rest| == 1 {
        assert Join(rest) == rest[0];
      } else {
        var pieces := [[s[0]] + rest[0]] + rest[1..];
        assert pieces[1..] == rest[1..];
        assert Join(rest) == rest[0] + "," + Join(rest[1..]);
      }
    }
  }

  /** Comma-free text glued in front of the first piece. */
  lemma {:induction false} SplitAllCommaFreePrefix(x: string, y: string)
    requires CommaFree(x)
    ensures SplitAll(x + y) == [x + SplitAll(y)[0]] + SplitAll(y)[1..]
    decreases |x|
  {
    if |x| > 0 {
      assert (x + y)[1..] == x[1..] + y;
      SplitAllCommaFreePrefix(x[1..], y);
      assert [x[0]] + (x[1..] + SplitAll(y)[0]) == x + SplitAll(y)[0];
    } else {
      assert x + y == y;
      assert x + SplitAll(y)[0] == SplitAll(y)[0];
      assert SplitAll(y) == [SplitAll(y)[0]] + SplitAll(y)[1..];
    }
  }

  /** Round trip: splitting comma-free pieces joined by commas gives the
      pieces back. */
  lemma {:induction false} SplitAllJoin(pieces: seq<string>)
    requires |pieces| >= 1
    requires forall k :: 0 <= k < |pieces| ==> CommaFree(pieces[k])
    ensures SplitAll(Join(pieces)) == pieces
    decreases |pieces|
  {
    if |pieces| > 1 {
      var tail := Join(pieces[1..]);
      SplitAllJoin(pieces[1..]);
      assert ("," + tail)[1..] == tail;
      assert SplitAll("," + tail) == [""] + pieces[1..];
      assert Join(pieces) == pieces[0] + ("," + tail);
      SplitAllCommaFreePrefix(pieces[0], "," + tail);
      assert pieces[0] + "" == pieces[0];
      assert ([""] + pieces[1..])[1..] == pieces[1..];
    } else {
      SplitAllCommaFreePrefix(pieces[0], "");
      assert pieces[0] + "" == pieces[0];
    }
  }

  /** `pieces` without its trailing empty strings. */
  function DropTrailingEmpty(pieces: seq<string>): (r: seq<string>)
    ensures |r| <= |pieces| && r == pieces[..|r|]
    ensures forall k :: |r| <= k < |pieces| ==> pieces[k] == ""
    ensures |r| > 0 ==> r[|r| - 1] != ""
    decreases |pieces|
  {
    if |pieces| > 0 && pieces[|pieces| - 1] == "" then DropTrailingEmpty(pieces[..|pieces| - 1])
    else pieces
  }

  /** `s.split(",")`: the comma-separated pieces with the trailing empty
      ones dropped; text without a comma comes back as the one piece `s`,
      even when it is empty. */
  function SplitOnComma(s: string): (fields: seq<string>)
    ensures CommaFree(s) ==> fields == [s]
    ensures !CommaFree(s) ==> |fields| == 0 || fields[|fields| - 1] != ""
    ensures |fields| <= |SplitAll(s)| && fields == SplitAll(s)[..|fields|]
    ensures forall k :: |fields| <= k < |SplitAll(s)| ==> SplitAll(s)[k] == ""
  {
    if CommaFree(s) then
      SplitAllCommaFreePrefix(s, "");
      assert s + "" == s;
      [s]
    else DropTrailingEmpty(SplitAll(s))
  }

  /** Pieces whose last one is not empty come back whole from `split`. */
  lemma SplitOnCommaJoin(pieces: seq<string>)
    requires |pieces| >= 1 && pieces[|pieces| - 1] != ""
    requires forall k :: 0 <= k < |pieces| ==> CommaFree(pieces[k])
    ensures SplitOnComma(Join(pieces)) == pieces
  {
    SplitAllJoin(pieces);
  }

  lemma {:induction false} JoinAppend(pieces: seq<string>, last: string)
    requires |pieces| >= 1
    ensures Join(pieces + [last]) == Join(pieces) + "," + last
    decreases |pieces|
  {
    if |pieces| > 1 {
      assert (pieces + [last])[1..] == pieces[1..] + [last];
      JoinAppend(pieces[1..], last);
    } else {
      assert (pieces + [last])[1..] == [last];
    }
  }

  /** A trailing comma after non-empty text is invisible to `split`: a line
      with six fields and extra trailing commas still yields six fields. */
  lemma TrailingCommaIgnored(s: string)
    requires s != ""
    ensures SplitOnComma(s + ",") == SplitOnComma(s)
  {
    var pieces := SplitAll(s);
    JoinSplitAll(s);
    JoinAppend(pieces, "");
    assert Join(pieces + [""]) == s + ",";
    assert forall k :: 0 <= k < |pieces + [""]| ==> CommaFree((pieces + [""])[k]);
    SplitAllJoin(pieces + [""]);
    assert SplitAll(s + ",") == pieces + [""];
    assert !CommaFree(s + ",") by {
      assert (s + ",")[|s|] == ',';
    }
    assert DropTrailingEmpty(pieces + [""]) == DropTrailingEmpty(pieces) by {
      assert (pieces + [""])[..|pieces|] == pieces;
    }
    if CommaFree(s) {
      SplitAllCommaFreePrefix(s, "");
      assert s + "" == s;
      assert pieces == [s];
    }
  }
}

=== FILE: movie.dfy ===
/** A movie record and the field constraints the store enforces on it.
    The record itself is a plain value: its setters store their argument
    unchanged, so an update is a copy with some fields replaced. */
module Movies {
  import opened Optional
  import opened JavaNumbers
  import opened JavaStrings

  datatype Movie = Movie(
    title: string,
    genre: string,
    year: Int32,
    rating: Double,
    duration: Int32,
    available: bool)

  const MinYear: int := 1800
  const MinRating: real := 0.0
  const MaxRating: real := 10.0

  /** A string argument that is neither null nor blank. */
  predicate PresentText(s: Option<string>)
  {
    s.Some? && !IsBlank(s.value)
  }

  /** A rating inside `[0, 10]`; NaN and the infinities are outside. */
  predicate ValidRating(rating: Double)
  {
    rating.Finite? && MinRating <= rating.value <= MaxRating
  }

  /** The constraints on every field an update may change. */
  predicate ValidDetails(genre: Option<string>, year: int, rating: Double, duration: int)
  {
    && PresentText(genre)
    && year >= MinYear
    && ValidRating(rating)
    && duration > 0
  }

  /** The constraints on the arguments of a new record. */
  predicate ValidFields(title: Option<string>, genre: Option<string>, year: int, rating: Double, duration: int)
  {
    PresentText(title) && ValidDetails(genre, year, rating, duration)
  }

  /** The invariant of a stored record. */
  predicate ValidMovie(m: Movie)
  {
    ValidFields(Some(m.title), Some(m.genre), m.year, m.rating, m.duration)
  }
}

=== FILE: movie_import.dfy ===
/** Bulk import (`loadFromFile`): each line is trimmed, blank lines are
    skipped, the rest is split on commas, lines without exactly six fields
    or with an unparsable number are skipped, and every other line goes
    through `createMovie`; the result is the number of records created.
    The text arrives as the lines already read; `Double.parseDouble` is a
    parameter, since floating-point parsing is not part of this model. */
module MovieImport {
  import opened Optional
  import opened JavaNumbers
  import opened JavaStrings
  import opened Movies
  import opened MovieManager

  /** A field count other than this skips the line. */
  const FieldCount: nat := 6

  /** The record a line describes, before validation: the six trimmed
      fields with year, rating and duration parsed. `None` for a line that
      is blank, has the wrong number of fields, or whose year, rating or
      duration does not parse. */
  function ParseLine(line: string, parseDouble: string -> Option<Double>): (r: Option<Movie>)
    ensures r.Some? ==> Trim(line) != "" && |SplitOnComma(Trim(line))| == FieldCount
  {
    var text := Trim(line);
    if text == "" then None
    else
      var data := SplitOnComma(text);
      if |data| != FieldCount then None
      else ParseFields(TrimEach(data), parseDouble)
  }

  /** Every field trimmed, as the source does field by field. */
  function TrimEach(data: seq<string>): (fields: seq<string>)
    ensures |fields| == |data|
    ensures forall i :: 0 <= i < |data| ==> fields[i] == Trim(data[i])
  {
    seq(|data|, i requires 0 <= i < |data| => Trim(data[i]))
  }

  /** The record six trimmed fields describe: year and duration read by
      `Integer.parseInt`, rating by `parseDouble`, availability by
      `Boolean.parseBoolean`; `None` when a number does not parse (the
      source's caught exception). */
  function ParseFields(fields: seq<string>, parseDouble: string -> Option<Double>): (r: Option<Movie>)
    requires |fields| == FieldCount
    ensures r.Some? <==> ParseInt(fields[2]).Some? && parseDouble(fields[3]).Some? && ParseInt(fields[4]).Some?
    ensures r.Some? ==> && r.value.title == fields[0] && r.value.genre == fields[1]
                        && ParseInt(fields[2]) == Some(r.value.year)
                        && parseDouble(fields[3]) == Some(r.value.rating)
                        && ParseInt(fields[4]) == Some(r.value.duration)
                        && (r.value.available <==> ParseBoolean(fields[5]))
  {
    match (ParseInt(fields[2]), parseDouble(fields[3]), ParseInt(fields[4]))
    case (Some(year), Some(rating), Some(duration)) =>
      Some(Movie(fields[0], fields[1], year, rating, duration, ParseBoolean(fields[5])))
    case _ => None
  }

  /** What a line's parse says: blank lines and lines without exactly six
      fields give nothing; otherwise the record holds the trimmed title and
      genre, the parsed numbers, and `available` is true exactly when the
      trimmed field is "true" in any case; a line with six fields gives
      nothing only when a number does not parse. */
  lemma ParseLineMeaning(line: string, parseDouble: string -> Option<Double>)
    ensures Trim(line) == "" ==> ParseLine(line, parseDouble).None?
    ensures |SplitOnComma(Trim(line))| != FieldCount ==> ParseLine(line, parseDouble).None?
    ensures ParseLine(line, parseDouble).Some? ==>
      var data := SplitOnComma(Trim(line));
      && ParseLine(line, parseDouble).value.title == Trim(data[0])
      && ParseLine(line, parseDouble).value.genre == Trim(data[1])
      && ParseInt(Trim(data[2])) == Some(ParseLine(line, parseDouble).value.year)
      && parseDouble(Trim(data[3])) == Some(ParseLine(line, parseDouble).value.rating)
      && ParseInt(Trim(data[4])) == Some(ParseLine(line, parseDouble).value.duration)
      && (ParseLine(line, parseDouble).value.available <==> EqualsIgnoreCase(Trim(data[5]), "true"))
    ensures ParseLine(line, parseDouble).None? && Trim(line) != "" && |SplitOnComma(Trim(line))| == FieldCount ==>
      var data := SplitOnComma(Trim(line));
      ParseInt(Trim(data[2])).None? || parseDouble(Trim(data[3])).None? || ParseInt(Trim(data[4])).None?
  {
  }

  /** One iteration of the import loop: hand the record the line describes,
      if any, to `createMovie`; `ok` says whether the line counts. The
      loop is stated for any line parser; `ParseLine` is the one the source
      uses. */
  function ImportLine(s: Store, line: string, parse: string -> Option<Movie>): (r: Response)
    ensures r.ok <==> parse(line).Some? && ValidMovie(parse(line).value)
    ensures !r.ok ==> r.store == s
    ensures r.ok ==> r.store.movies == s.movies + [parse(line).value]
  {
    match parse(line)
    case None => Response(s, false)
    case Some(m) =>
      var r := CreateMovie(s, Some(m.title), Some(m.genre), m.year, m.rating, m.duration, m.available);
      assert r.ok ==> r.store.movies == s.movies + [m];
      r
  }

  /** The store after importing and the number of records imported. */
  datatype ImportResult = ImportResult(store: Store, count: nat)

  /** The import loop over the lines, front to back. */
  function ImportLines(s: Store, lines: seq<string>, parse: string -> Option<Movie>): (r: ImportResult)
    ensures r.count <= |lines|
    ensures |r.store.movies| == |s.movies| + r.count
    ensures r.store.movies[..|s.movies|] == s.movies
    ensures Valid(s) ==> Valid(r.store)
    decreases |lines|
  {
    if |lines| == 0 then ImportResult(s, 0)
    else
      var step := ImportLine(s, lines[0], parse);
      var rest := ImportLines(step.store, lines[1..], parse);
      assert rest.store.movies[..|s.movies|] == rest.store.movies[..|step.store.movies|][..|s.movies|];
      ImportResult(rest.store, rest.count + if step.ok then 1 else 0)
  }

  /** The records a single line contributes: its record if it parses and
      is valid, nothing otherwise. */
  function AcceptedLine(line: string, parse: string -> Option<Movie>): (r: seq<Movie>)
    ensures |r| <= 1
    ensures |r| == 1 <==> parse(line).Some? && ValidMovie(parse(line).value)
    ensures |r| == 1 ==> r[0] == parse(line).value
  {
    match parse(line)
    case Some(m) => if ValidMovie(m) then [m] else []
    case None => []
  }

  /** The records the lines describe that pass validation, in line order;
      a definition of the import's outcome that does not thread a store. */
  function Accepted(lines: seq<string>, parse: string -> Option<Movie>): (r: seq<Movie>)
    ensures |r| <= |lines|
    ensures forall k :: 0 <= k < |r| ==> ValidMovie(r[k])
    decreases |lines|
  {
    if |lines| == 0 then [] else AcceptedLine(lines[0], parse) + Accepted(lines[1..], parse)
  }

  /** The import appends exactly the accepted records, in line order, and
      reports their number: the outcome does not depend on what the store
      held before, since create checks no duplicates. */
  lemma {:induction false} ImportAppendsAccepted(s: Store, lines: seq<string>, parse: string -> Option<Movie>)
    ensures ImportLines(s, lines, parse)
         == ImportResult(Store(s.movies + Accepted(lines, parse)), |Accepted(lines, parse)|)
    decreases |lines|
  {
    if |lines| > 0 {
      var step := ImportLine(s, lines[0], parse);
      var head := AcceptedLine(lines[0], parse);
      var tail := Accepted(lines[1..], parse);
      if !step.ok {
        assert head == [];
        assert s.movies + [] == s.movies;
      }
      assert step.store.movies == s.movies + head;
      ImportAppendsAccepted(step.store, lines[1..], parse);
      assert step.store.movies + tail == s.movies + (head + tail);
    } else {
      assert s.movies + [] == s.movies;
    }
  }

  /** Every record the import adds comes from some line of the input and
      passed the field validation. */
  lemma {:induction false} AcceptedComeFromLines(lines: seq<string>, parse: string -> Option<Movie>, k: int)
    requires 0 <= k < |Accepted(lines, parse)|
    ensures ValidMovie(Accepted(lines, parse)[k])
    ensures exists i :: 0 <= i < |lines| && parse(lines[i]) == Some(Accepted(lines, parse)[k])
    decreases |lines|
  {
    var head := AcceptedLine(lines[0], parse);
    if k < |head| {
      assert parse(lines[0]) == Some(Accepted(lines, parse)[k]);
    } else {
      AcceptedComeFromLines(lines[1..], parse, k - |head|);
      var i :| 0 <= i < |lines[1..]| && parse(lines[1..][i]) == Some(Accepted(lines[1..], parse)[k - |head|]);
      assert lines[1..][i] == lines[i + 1];
    }
  }

  lemma {:induction false} AcceptedAppend(a: seq<string>, b: seq<string>, parse: string -> Option<Movie>)
    ensures Accepted(a + b, parse) == Accepted(a, parse) + Accepted(b, parse)
    decreases |a|
  {
    if |a| == 0 {
      assert a + b == b;
    } else {
      assert (a + b)[1..] == a[1..] + b;
      AcceptedAppend(a[1..], b, parse);
    }
  }

  /** Importing `a + b` is importing `a`, then importing `b` into the
      result; the counts add up. */
  lemma ImportConcat(s: Store, a: seq<string>, b: seq<string>, parse: string -> Option<Movie>)
    ensures var first := ImportLines(s, a, parse);
            var second := ImportLines(first.store, b, parse);
            ImportLines(s, a + b, parse) == ImportResult(second.store, first.count + second.count)
  {
    var first := ImportLines(s, a, parse);
    var second := ImportLines(first.store, b, parse);
    var acceptedA := Accepted(a, parse);
    var acceptedB := Accepted(b, parse);
    assert first == ImportResult(Store(s.movies + acceptedA), |acceptedA|) by {
      ImportAppendsAccepted(s, a, parse);
    }
    assert second == ImportResult(Store(first.store.movies + acceptedB), |acceptedB|) by {
      ImportAppendsAccepted(first.store, b, parse);
    }
    assert ImportLines(s, a + b, parse) == ImportResult(Store(s.movies + (acceptedA + acceptedB)), |acceptedA + acceptedB|) by {
      ImportAppendsAccepted(s, a + b, parse);
      AcceptedAppend(a, b, parse);
    }
    assert s.movies + acceptedA + acceptedB == s.movies + (acceptedA + acceptedB);
  }

  /** A line that does not parse is skipped without any other effect. */
  lemma SkippedLineChangesNothing(s: Store, line: string, parse: string -> Option<Movie>)
    requires parse(line).None?
    ensures ImportLines(s, [line], parse) == ImportResult(s, 0)
  {
    assert [line][1..] == [];
  }

  /** Why the source could not be read. */
  datatype LoadError = SourceUnavailable

  /** `loadFromFile`: `None` for a file that cannot be opened (the
      `FileNotFoundException`, raised before any line is read, so the store
      is left alone); otherwise the lines are imported with `ParseLine`. */
  function LoadFromFile(s: Store, source: Option<seq<string>>, parseDouble: string -> Option<Double>)
    : (r: Result<ImportResult, LoadError>)
    ensures r.Failure? <==> source.None?
    ensures r.Success? ==> && r.value.count <= |source.value|
                           && r.value.store.movies == s.movies + Accepted(source.value, line => ParseLine(line, parseDouble))
                           && r.value.count == |Accepted(source.value, line => ParseLine(line, parseDouble))|
    ensures r.Success? && Valid(s) ==> Valid(r.value.store)
  {
    match source
    case None => Failure(SourceUnavailable)
    case Some(lines) =>
      var parse := line => ParseLine(line, parseDouble);
      ImportAppendsAccepted(s, lines, parse);
      Success(ImportLines(s, lines, parse))
  }

  // ---------------------------------------------------------------------
  // Writing a line the import reads back

  /** The characters at both ends of `s`, if any, are not stripped by `trim`. */
  predicate TrimTight(s: string)
  {
    |s| > 0 ==> !Trimmable(s[0]) && !Trimmable(s[|s| - 1])
  }

  /** A line in the import format: the six fields joined by commas, with
      `ratingText` standing for however the rating is written. */
  function FormatLine(m: Movie, ratingText: string): string
  {
    Join([m.title, m.genre, FormatInt(m.year), ratingText, FormatInt(m.duration), FormatBoolean(m.available)])
  }

  lemma FormattedIntField(n: int)
    ensures CommaFree(FormatInt(n)) && TrimTight(FormatInt(n)) && Trim(FormatInt(n)) == FormatInt(n)
  {
    FormatIntShape(n);
    TrimKeepsTrimmed(FormatInt(n));
  }

  /** The six fields of a formatted line, as written. */
  function FormatFields(m: Movie, ratingText: string): (fields: seq<string>)
    ensures |fields| == FieldCount
  {
    [m.title, m.genre, FormatInt(m.year), ratingText, FormatInt(m.duration), FormatBoolean(m.available)]
  }

  /** A formatted line is already trimmed and splits back into its fields. */
  lemma FormatLineSplits(m: Movie, ratingText: string)
    requires |m.title| > 0 && CommaFree(m.title) && TrimTight(m.title)
    requires CommaFree(m.genre) && CommaFree(ratingText)
    ensures FormatLine(m, ratingText) != ""
    ensures Trim(FormatLine(m, ratingText)) == FormatLine(m, ratingText)
    ensures SplitOnComma(FormatLine(m, ratingText)) == FormatFields(m, ratingText)
  {
    var fields := FormatFields(m, ratingText);
    var line := Join(fields);
    assert line == FormatLine(m, ratingText);
    assert TrimTight(line) && line != "" by {
      FormattedLineEnds(m, ratingText);
    }
    TrimKeepsTrimmed(line);
    FormatFieldsCommaFree(m, ratingText);
    SplitOnCommaJoin(fields);
  }

  /** A formatted line starts with the title's first character and ends
      with the last character of the availability flag. */
  lemma FormattedLineEnds(m: Movie, ratingText: string)
    requires |m.title| > 0 && TrimTight(m.title)
    ensures TrimTight(FormatLine(m, ratingText)) && FormatLine(m, ratingText) != ""
  {
    var fields := FormatFields(m, ratingText);
    var line := Join(fields);
    var last := FormatBoolean(m.available);
    assert line == m.title + "," + Join(fields[1..]);
    assert line[0] == m.title[0];
    assert fields[..5] + [last] == fields;
    JoinAppend(fields[..5], last);
    assert line[|line| - 1] == last[|last| - 1];
  }

  /** Round trip: a record whose title and genre are non-empty, free of
      commas and not padded, written in the import format with a rating
      text that `parseDouble` reads as its rating, parses back to itself. */
  lemma ParseFormatLine(m: Movie, ratingText: string, parseDouble: string -> Option<Double>)
    requires |m.title| > 0 && CommaFree(m.title) && TrimTight(m.title)
    requires CommaFree(m.genre) && TrimTight(m.genre)
    requires CommaFree(ratingText) && TrimTight(ratingText)
    requires parseDouble(ratingText) == Some(m.rating)
    ensures ParseLine(FormatLine(m, ratingText), parseDouble) == Some(m)
  {
    var line := FormatLine(m, ratingText);
    var data := FormatFields(m, ratingText);
    assert line != "" && Trim(line) == line && SplitOnComma(line) == data by {
      FormatLineSplits(m, ratingText);
    }
    assert TrimEach(data) == data by {
      FormatFieldsTight(m, ratingText);
      TrimEachKeepsTight(data);
    }
    assert ParseFields(data, parseDouble) == Some(m) by {
      ParseFormattedFields(m, ratingText, parseDouble);
    }
    ParseTrimmedLine(line, parseDouble);
  }

  /** A trimmed, non-empty line splitting into six trimmed fields parses as
      those fields do. */
  lemma ParseTrimmedLine(line: string, parseDouble: string -> Option<Double>)
    ensures var data := SplitOnComma(line);
            line != "" && Trim(line) == line && |data| == FieldCount && TrimEach(data) == data ==>
              ParseLine(line, parseDouble) == ParseFields(data, parseDouble)
  {
  }

  /** No formatted field holds a comma when the title, genre and rating
      text hold none. */
  lemma FormatFieldsCommaFree(m: Movie, ratingText: string)
    requires CommaFree(m.title) && CommaFree(m.genre) && CommaFree(ratingText)
    ensures forall i :: 0 <= i < FieldCount ==> CommaFree(FormatFields(m, ratingText)[i])
  {
    var data := FormatFields(m, ratingText);
    FormattedIntField(m.year);
    FormattedIntField(m.duration);
    assert CommaFree(FormatBoolean(m.available));
    forall i | 0 <= i < FieldCount
      ensures CommaFree(data[i])
    {
      if i == 0 { assert data[i] == m.title; }
      else if i == 1 { assert data[i] == m.genre; }
      else if i == 2 { assert data[i] == FormatInt(m.year); }
      else if i == 3 { assert data[i] == ratingText; }
      else if i == 4 { assert data[i] == FormatInt(m.duration); }
      else { assert data[i] == FormatBoolean(m.available); }
    }
  }

  /** No formatted field has anything for `trim` to strip. */
  lemma FormatFieldsTight(m: Movie, ratingText: string)
    requires TrimTight(m.title) && TrimTight(m.genre) && TrimTight(ratingText)
    ensures forall i :: 0 <= i < FieldCount ==> TrimTight(FormatFields(m, ratingText)[i])
  {
    var data := FormatFields(m, ratingText);
    FormattedIntField(m.year);
    FormattedIntField(m.duration);
    assert TrimTight(FormatBoolean(m.available));
    forall i | 0 <= i < FieldCount
      ensures TrimTight(data[i])
    {
      if i == 0 { assert data[i] == m.title; }
      else if i == 1 { assert data[i] == m.genre; }
      else if i == 2 { assert data[i] == FormatInt(m.year); }
      else if i == 3 { assert data[i] == ratingText; }
      else if i == 4 { assert data[i] == FormatInt(m.duration); }
      else { assert data[i] == FormatBoolean(m.available); }
    }
  }

  /** Fields that `trim` leaves alone come back whole from `TrimEach`. */
  lemma TrimEachKeepsTight(data: seq<string>)
    requires forall i :: 0 <= i < |data| ==> TrimTight(data[i])
    ensures TrimEach(data) == data
  {
    forall i | 0 <= i < |data|
      ensures Trim(data[i]) == data[i]
    {
      TrimKeepsTrimmed(data[i]);
    }
  }

  /** The six formatted fields parse back to the record. */
  lemma ParseFormattedFields(m: Movie, ratingText: string, parseDouble: string -> Option<Double>)
    requires parseDouble(ratingText) == Some(m.rating)
    ensures ParseFields(FormatFields(m, ratingText), parseDouble) == Some(m)
  {
    ParseFormatRoundTrip(m.year);
    ParseFormatRoundTrip(m.duration);
    ParseFormatBoolean(m.available);
  }
}

=== FILE: movie_manager.dfy ===
/** The movie store: an insertion-ordered list of records with
    create / update / delete / find, a snapshot and the average duration.
    Every operation is a pure function from the store before the call to
    the store after it and the boolean the source returns. */
module MovieManager {
  import opened Optional
  import opened JavaNumbers
  import opened JavaStrings
  import opened Movies

  datatype Store = Store(movies: seq<Movie>)

  /** A new store holds no record. */
  const Empty: Store := Store([])

  /** The store after a mutating call and the call's boolean result. */
  datatype Response = Response(store: Store, ok: bool)

  /** Every stored record satisfies the field constraints. */
  predicate Valid(s: Store)
  {
    forall i :: 0 <= i < |s.movies| ==> ValidMovie(s.movies[i])
  }

  lemma EmptyIsValid()
    ensures Valid(Empty) && |Empty.movies| == 0
  {
  }

  // ---------------------------------------------------------------------
  // Matching by title

  /** `m.getTitle().equalsIgnoreCase(query)`; a null query matches nothing. */
  predicate TitleMatches(m: Movie, query: Option<string>)
  {
    query.Some? && EqualsIgnoreCase(m.title, query.value)
  }

  predicate AnyMatch(ms: seq<Movie>, query: Option<string>)
  {
    exists i :: 0 <= i < |ms| && TitleMatches(ms[i], query)
  }

  /** Position `i` holds the earliest record whose title matches. */
  predicate IsFirstMatch(ms: seq<Movie>, query: Option<string>, i: int)
  {
    && 0 <= i < |ms|
    && TitleMatches(ms[i], query)
    && forall j :: 0 <= j < i ==> !TitleMatches(ms[j], query)
  }

  /** The position the linear scan of `findMovie` stops at. */
  function FirstMatch(ms: seq<Movie>, query: Option<string>): (r: Option<nat>)
    ensures r.Some? ==> IsFirstMatch(ms, query, r.value)
    ensures r.None? <==> !AnyMatch(ms, query)
    decreases |ms|
  {
    if |ms| == 0 then None
    else if TitleMatches(ms[0], query) then Some(0)
    else
      match FirstMatch(ms[1..], query)
      case None => None
      case Some(k) => Some(k + 1)
  }

  /** There is at most one first match. */
  lemma FirstMatchUnique(ms: seq<Movie>, query: Option<string>, i: int, j: int)
    requires IsFirstMatch(ms, query, i) && IsFirstMatch(ms, query, j)
    ensures i == j
  {
  }

  // ---------------------------------------------------------------------
  // Operations

  /** `createMovie`: on valid fields, append one record and report true;
      otherwise report false and leave the store as it was. */
  function CreateMovie(s: Store, title: Option<string>, genre: Option<string>, year: Int32,
                       rating: Double, duration: Int32, available: bool): (r: Response)
    ensures r.ok <==> ValidFields(title, genre, year, rating, duration)
    ensures !r.ok ==> r.store == s
    ensures r.ok ==> && |r.store.movies| == |s.movies| + 1
                     && r.store.movies[..|s.movies|] == s.movies
                     && r.store.movies[|s.movies|] == Movie(title.value, genre.value, year, rating, duration, available)
    ensures Valid(s) ==> Valid(r.store)
  {
    if ValidFields(title, genre, year, rating, duration) then
      Response(Store(s.movies + [Movie(title.value, genre.value, year, rating, duration, available)]), true)
    else
      Response(s, false)
  }

  /** `findMovie`: the earliest record whose title equals the query ignoring
      case, or `None` (the source's `null`). */
  function FindMovie(s: Store, title: Option<string>): (r: Option<Movie>)
    ensures r.None? <==> !AnyMatch(s.movies, title)
    ensures r.Some? ==> exists i :: IsFirstMatch(s.movies, title, i) && s.movies[i] == r.value
  {
    match FirstMatch(s.movies, title)
    case None => None
    case Some(i) => Some(s.movies[i])
  }

  /** `updateMovie`: overwrite every field but the title of the first
      matching record, provided the new fields are valid. */
  function UpdateMovie(s: Store, title: Option<string>, genre: Option<string>, year: Int32,
                       rating: Double, duration: Int32, available: bool): (r: Response)
    ensures r.ok <==> AnyMatch(s.movies, title) && ValidDetails(genre, year, rating, duration)
    ensures !r.ok ==> r.store == s
    ensures r.ok ==> |r.store.movies| == |s.movies|
    ensures r.ok ==> exists i :: && IsFirstMatch(s.movies, title, i)
                                 && r.store.movies[i] == Movie(s.movies[i].title, genre.value, year, rating, duration, available)
                                 && forall j :: 0 <= j < |s.movies| && j != i ==> r.store.movies[j] == s.movies[j]
    ensures Valid(s) ==> Valid(r.store)
  {
    match FirstMatch(s.movies, title)
    case None => Response(s, false)
    case Some(i) =>
      if ValidDetails(genre, year, rating, duration) then
        var prev := s.movies[i];
        Response(Store(s.movies[i := Movie(prev.title, genre.value, year, rating, duration, available)]), true)
      else
        Response(s, false)
  }

  /** The records of `ms` whose title does not match, in their order. */
  function RemoveMatching(ms: seq<Movie>, query: Option<string>): (r: seq<Movie>)
    ensures |r| <= |ms|
    ensures forall i :: 0 <= i < |r| ==> r[i] in ms && !TitleMatches(r[i], query)
    ensures forall i :: 0 <= i < |ms| && !TitleMatches(ms[i], query) ==> ms[i] in r
    ensures |r| == |ms| <==> !AnyMatch(ms, query)
    decreases |ms|
  {
    if |ms| == 0 then []
    else
      var rest := RemoveMatching(ms[1..], query);
      assert forall i :: 0 < i < |ms| ==> ms[i] == ms[1..][i - 1];
      if TitleMatches(ms[0], query) then rest else [ms[0]] + rest
  }

  /** Removing matches from a concatenation removes them from each part:
      the records kept stay in their relative order. */
  lemma {:induction false} RemoveMatchingAppend(a: seq<Movie>, b: seq<Movie>, query: Option<string>)
    ensures RemoveMatching(a + b, query) == RemoveMatching(a, query) + RemoveMatching(b, query)
    decreases |a|
  {
    if |a| == 0 {
      assert a + b == b;
    } else {
      assert (a + b)[1..] == a[1..] + b;
      RemoveMatchingAppend(a[1..], b, query);
    }
  }

  /** `deleteMovie`: drop every record whose title matches, report whether
      any was dropped. */
  function DeleteMovie(s: Store, title: Option<string>): (r: Response)
    ensures r.ok <==> AnyMatch(s.movies, title)
    ensures r.ok <==> |r.store.movies| < |s.movies|
    ensures !AnyMatch(r.store.movies, title)
    ensures forall i :: 0 <= i < |r.store.movies| ==> r.store.movies[i] in s.movies
    ensures forall i :: 0 <= i < |s.movies| && !TitleMatches(s.movies[i], title) ==> s.movies[i] in r.store.movies
    ensures Valid(s) ==> Valid(r.store)
  {
    var kept := RemoveMatching(s.movies, title);
    Response(Store(kept), |kept| < |s.movies|)
  }

  /** Deleting from a store made of two runs of records deletes from each
      run and keeps their order. */
  lemma DeleteKeepsOrder(a: seq<Movie>, b: seq<Movie>, title: Option<string>)
    ensures DeleteMovie(Store(a + b), title).store.movies
         == DeleteMovie(Store(a), title).store.movies + DeleteMovie(Store(b), title).store.movies
  {
    RemoveMatchingAppend(a, b, title);
  }

  /** Without a match nothing is removed. */
  lemma {:induction false} RemoveMatchingNone(ms: seq<Movie>, query: Option<string>)
    requires !AnyMatch(ms, query)
    ensures RemoveMatching(ms, query) == ms
    decreases |ms|
  {
    if |ms| > 0 {
      assert !TitleMatches(ms[0], query);
      assert !AnyMatch(ms[1..], query) by {
        forall i | 0 <= i < |ms[1..]|
          ensures !TitleMatches(ms[1..][i], query)
        {
          assert ms[1..][i] == ms[i + 1];
        }
      }
      RemoveMatchingNone(ms[1..], query);
    }
  }

  /** Deleting twice is deleting once; the second call reports false. */
  lemma DeleteIdempotent(s: Store, title: Option<string>)
    ensures DeleteMovie(DeleteMovie(s, title).store, title) == Response(DeleteMovie(s, title).store, false)
  {
    RemoveMatchingNone(DeleteMovie(s, title).store.movies, title);
  }

  /** After a successful create the new record is found by any spelling of
      its title that differs only in case, unless an earlier record already
      answers to that title: create does not reject duplicates, and find
      keeps returning the older one. */
  lemma CreateThenFind(s: Store, title: string, genre: Option<string>, year: Int32,
                       rating: Double, duration: Int32, available: bool, query: string)
    requires CreateMovie(s, Some(title), genre, year, rating, duration, available).ok
    requires EqualsIgnoreCase(title, query)
    ensures var r := CreateMovie(s, Some(title), genre, year, rating, duration, available);
            && (!AnyMatch(s.movies, Some(query)) ==> FindMovie(r.store, Some(query)) == Some(r.store.movies[|s.movies|]))
            && (AnyMatch(s.movies, Some(query)) ==> FindMovie(r.store, Some(query)) == FindMovie(s, Some(query)))
  {
    var m := Movie(title, genre.value, year, rating, duration, available);
    assert CreateMovie(s, Some(title), genre, year, rating, duration, available).store.movies == s.movies + [m];
    assert TitleMatches(m, Some(query));
    FirstMatchAppend(s.movies, m, Some(query));
  }

  /** The scan over a list with one record appended stops where the scan
      over the list stopped, and otherwise at the new record if it matches. */
  lemma FirstMatchAppend(ms: seq<Movie>, m: Movie, query: Option<string>)
    ensures FirstMatch(ms + [m], query)
         == if FirstMatch(ms, query).Some? then FirstMatch(ms, query)
            else if TitleMatches(m, query) then Some(|ms|)
            else None
  {
    var longer := ms + [m];
    assert forall k :: 0 <= k < |ms| ==> longer[k] == ms[k];
    match FirstMatch(longer, query)
    case None =>
      assert !TitleMatches(longer[|ms|], query);
    case Some(i) =>
      if FirstMatch(ms, query).Some? {
        FirstMatchUnique(longer, query, i, FirstMatch(ms, query).value);
      }
  }

  /** After a successful update, find returns the record with its title
      kept and the new fields in place. */
  lemma UpdateThenFind(s: Store, title: Option<string>, genre: Option<string>, year: Int32,
                       rating: Double, duration: Int32, available: bool)
    requires UpdateMovie(s, title, genre, year, rating, duration, available).ok
    ensures var r := UpdateMovie(s, title, genre, year, rating, duration, available);
            && FindMovie(r.store, title).Some?
            && FindMovie(r.store, title).value.title == FindMovie(s, title).value.title
            && FindMovie(r.store, title).value
               == FindMovie(s, title).value.(genre := genre.value, year := year, rating := rating,
                                              duration := duration, available := available)
  {
    var r := UpdateMovie(s, title, genre, year, rating, duration, available);
    var i :| && IsFirstMatch(s.movies, title, i)
             && r.store.movies[i] == Movie(s.movies[i].title, genre.value, year, rating, duration, available)
             && forall j :: 0 <= j < |s.movies| && j != i ==> r.store.movies[j] == s.movies[j];
    assert IsFirstMatch(r.store.movies, title, i);
    var a :| IsFirstMatch(s.movies, title, a) && s.movies[a] == FindMovie(s, title).value;
    FirstMatchUnique(s.movies, title, i, a);
    var b :| IsFirstMatch(r.store.movies, title, b) && r.store.movies[b] == FindMovie(r.store, title).value;
    FirstMatchUnique(r.store.movies, title, i, b);
  }

  /** After a delete nothing answers to the deleted title. */
  lemma DeleteThenFind(s: Store, title: Option<string>)
    ensures FindMovie(DeleteMovie(s, title).store, title) == None
  {
  }

  /** `getAllMovies`: a copy of the records in insertion order. */
  function GetAllMovies(s: Store): (r: seq<Movie>)
    ensures |r| == |s.movies|
    ensures forall i :: 0 <= i < |r| ==> r[i] == s.movies[i]
  {
    s.movies
  }

  // ---------------------------------------------------------------------
  // Average duration

  /** Sum of the durations, accumulated front to back. */
  function TotalDuration(ms: seq<Movie>): int
  {
    if |ms| == 0 then 0 else TotalDuration(ms[..|ms| - 1]) + ms[|ms| - 1].duration
  }

  /** Every record of a valid store lasts at least a minute, so the total
      is at least the number of records. */
  lemma {:induction false} TotalAtLeastCount(ms: seq<Movie>)
    requires forall i :: 0 <= i < |ms| ==> ms[i].duration > 0
    ensures TotalDuration(ms) >= |ms|
    decreases |ms|
  {
    if |ms| > 0 {
      TotalAtLeastCount(ms[..|ms| - 1]);
    }
  }

  /** `getAverageDuration`: 0 for an empty store, otherwise the total
      duration divided by the number of records. */
  method AverageDuration(s: Store) returns (avg: real)
    ensures |s.movies| == 0 ==> avg == 0.0
    ensures |s.movies| > 0 ==> avg * (|s.movies| as real) == TotalDuration(s.movies) as real
    ensures Valid(s) && |s.movies| > 0 ==> avg >= 1.0
  {
    var ms := s.movies;
    if |ms| == 0 {
      return 0.0;
    }
    var total := 0;
    var i := 0;
    while i < |ms|
      invariant 0 <= i <= |ms|
      invariant total == TotalDuration(ms[..i])
    {
      assert ms[..i + 1][..i] == ms[..i];
      total := total + ms[i].duration;
      i := i + 1;
    }
    assert ms[..|ms|] == ms;
    avg := (total as real) / (|ms| as real);
    if Valid(s) {
      TotalAtLeastCount(ms);
      QuotientAtLeastOne(total as real, |ms| as real);
    }
  }

  /** A total no smaller than a positive count averages at least one. */
  lemma QuotientAtLeastOne(total: real, n: real)
    requires total >= n > 0.0
    ensures total / n >= 1.0
  {
  }
}

=== FILE: optional.dfy ===
/** The absent-or-present value used for Java references that may be null
    and for parses that may fail, and the success-or-error outcome. */
module Optional {

  datatype Option<+T> = None | Some(value: T)

  /** An outcome that is either a value or the reason there is none. */
  datatype Result<+T, +E> = Success(value: T) | Failure(error: E)

}

=== FILE: rating_finding.dfy ===
/** The rating guard as the source writes it, `rating < 0 || rating > 10`,
    rejects too little: every comparison with NaN is false, so a NaN rating
    passes `createMovie`, `updateMovie` and, through `createMovie`, the
    import in `loadFromFile`; the store then holds a record whose rating is
    not in `[0, 10]`. This module keeps the guard as
    written next to the corrected one (`ValidRating`, used by the store
    model) and shows where they part. */
module RatingFinding {
  import opened Optional
  import opened JavaNumbers
  import opened JavaStrings
  import opened Movies
  import opened MovieManager
  import opened MovieImport

  /** The source's guard: neither `rating < 0` nor `rating > 10` holds. */
  predicate GuardAsWritten(rating: Double)
  {
    !Less(rating, MinRating) && !Greater(rating, MaxRating)
  }

  /** The checks `updateMovie` as written makes of the new fields. */
  predicate ValidDetailsAsWritten(genre: Option<string>, year: int, rating: Double, duration: int)
  {
    && PresentText(genre)
    && year >= MinYear
    && GuardAsWritten(rating)
    && duration > 0
  }

  /** The checks `createMovie` as written makes of its arguments. */
  predicate ValidFieldsAsWritten(title: Option<string>, genre: Option<string>, year: int, rating: Double, duration: int)
  {
    PresentText(title) && ValidDetailsAsWritten(genre, year, rating, duration)
  }

  /** The checks `createMovie` as written makes of a parsed record. */
  predicate ValidMovieAsWritten(m: Movie)
  {
    ValidFieldsAsWritten(Some(m.title), Some(m.genre), m.year, m.rating, m.duration)
  }

  /** The two guards agree on every rating except NaN. */
  lemma GuardsAgreeOutsideNaN(rating: Double)
    requires rating != NaN
    ensures GuardAsWritten(rating) <==> ValidRating(rating)
  {
    OrderedOutsideNaN(rating, MinRating, MaxRating);
  }

  /** `createMovie` exactly as written, NaN loophole included. */
  function CreateMovieAsWritten(s: Store, title: Option<string>, genre: Option<string>, year: Int32,
                                rating: Double, duration: Int32, available: bool): (r: Response)
    ensures r.ok <==> ValidFieldsAsWritten(title, genre, year, rating, duration)
    ensures !r.ok ==> r.store == s
    ensures r.ok ==> r.store.movies == s.movies + [Movie(title.value, genre.value, year, rating, duration, available)]
  {
    if ValidFieldsAsWritten(title, genre, year, rating, duration) then
      Response(Store(s.movies + [Movie(title.value, genre.value, year, rating, duration, available)]), true)
    else
      Response(s, false)
  }

  /** `updateMovie` exactly as written, NaN loophole included. */
  function UpdateMovieAsWritten(s: Store, title: Option<string>, genre: Option<string>, year: Int32,
                                rating: Double, duration: Int32, available: bool): (r: Response)
    ensures r.ok <==> AnyMatch(s.movies, title) && ValidDetailsAsWritten(genre, year, rating, duration)
    ensures !r.ok ==> r.store == s
    ensures r.ok ==> |r.store.movies| == |s.movies|
    ensures r.ok ==> exists i :: && IsFirstMatch(s.movies, title, i)
                                 && r.store.movies[i] == Movie(s.movies[i].title, genre.value, year, rating, duration, available)
                                 && forall j :: 0 <= j < |s.movies| && j != i ==> r.store.movies[j] == s.movies[j]
  {
    match FirstMatch(s.movies, title)
    case None => Response(s, false)
    case Some(i) =>
      if ValidDetailsAsWritten(genre, year, rating, duration) then
        var prev := s.movies[i];
        Response(Store(s.movies[i := Movie(prev.title, genre.value, year, rating, duration, available)]), true)
      else
        Response(s, false)
  }

  /** The counterexample: as written, creating "Dune" with a NaN rating
      succeeds and leaves an empty store holding an invalid record; the
      corrected create refuses it. */
  lemma CreateAsWrittenAdmitsNaN()
    ensures CreateMovieAsWritten(Empty, Some("Dune"), Some("Sci-Fi"), 1984, NaN, 137, true).ok
    ensures !Valid(CreateMovieAsWritten(Empty, Some("Dune"), Some("Sci-Fi"), 1984, NaN, 137, true).store)
    ensures !CreateMovie(Empty, Some("Dune"), Some("Sci-Fi"), 1984, NaN, 137, true).ok
  {
    assert !IsWhitespace("Dune"[0]) && !IsWhitespace("Sci-Fi"[0]);
    var r := CreateMovieAsWritten(Empty, Some("Dune"), Some("Sci-Fi"), 1984, NaN, 137, true);
    assert r.store.movies[0].rating == NaN;
  }

  /** The counterexample for update: a valid record updated with a NaN
      rating, as written, makes the store invalid. */
  lemma UpdateAsWrittenAdmitsNaN(s: Store, title: Option<string>)
    requires Valid(s) && AnyMatch(s.movies, title)
    ensures UpdateMovieAsWritten(s, title, Some("Drama"), 2000, NaN, 90, false).ok
    ensures !Valid(UpdateMovieAsWritten(s, title, Some("Drama"), 2000, NaN, 90, false).store)
    ensures !UpdateMovie(s, title, Some("Drama"), 2000, NaN, 90, false).ok
  {
    assert !IsWhitespace("Drama"[0]);
    var r := UpdateMovieAsWritten(s, title, Some("Drama"), 2000, NaN, 90, false);
    var i :| IsFirstMatch(s.movies, title, i) && r.store.movies[i].rating == NaN;
    assert !ValidMovie(r.store.movies[i]);
  }

  /** Away from NaN the corrected create is the create the source wrote. */
  lemma CreateAgreesOutsideNaN(s: Store, title: Option<string>, genre: Option<string>, year: Int32,
                               rating: Double, duration: Int32, available: bool)
    requires rating != NaN
    ensures CreateMovie(s, title, genre, year, rating, duration, available)
         == CreateMovieAsWritten(s, title, genre, year, rating, duration, available)
  {
    GuardsAgreeOutsideNaN(rating);
  }

  /** Away from NaN the corrected update is the update the source wrote. */
  lemma UpdateAgreesOutsideNaN(s: Store, title: Option<string>, genre: Option<string>, year: Int32,
                               rating: Double, duration: Int32, available: bool)
    requires rating != NaN
    ensures UpdateMovie(s, title, genre, year, rating, duration, available)
         == UpdateMovieAsWritten(s, title, genre, year, rating, duration, available)
  {
    GuardsAgreeOutsideNaN(rating);
  }

  // ---------------------------------------------------------------------
  // The import as written: `loadFromFile` hands each parsed line to
  // `createMovie`, so the loophole reaches the file import too.

  /** One line of the import as written. */
  function ImportLineAsWritten(s: Store, line: string, parse: string -> Option<Movie>): (r: Response)
    ensures r.ok <==> parse(line).Some? && ValidMovieAsWritten(parse(line).value)
    ensures !r.ok ==> r.store == s
    ensures r.ok ==> r.store.movies == s.movies + [parse(line).value]
  {
    match parse(line)
    case None => Response(s, false)
    case Some(m) =>
      var r := CreateMovieAsWritten(s, Some(m.title), Some(m.genre), m.year, m.rating, m.duration, m.available);
      assert r.ok ==> r.store.movies == s.movies + [m];
      r
  }

  /** The import loop as written, front to back. */
  function ImportLinesAsWritten(s: Store, lines: seq<string>, parse: string -> Option<Movie>): (r: ImportResult)
    ensures r.count <= |lines|
    ensures |r.store.movies| == |s.movies| + r.count
    ensures r.store.movies[..|s.movies|] == s.movies
    decreases |lines|
  {
    if |lines| == 0 then ImportResult(s, 0)
    else
      var step := ImportLineAsWritten(s, lines[0], parse);
      var rest := ImportLinesAsWritten(step.store, lines[1..], parse);
      assert rest.store.movies[..|s.movies|] == rest.store.movies[..|step.store.movies|][..|s.movies|];
      ImportResult(rest.store, rest.count + if step.ok then 1 else 0)
  }

  /** `loadFromFile` as written. */
  function LoadFromFileAsWritten(s: Store, source: Option<seq<string>>, parseDouble: string -> Option<Double>)
    : (r: Result<ImportResult, LoadError>)
    ensures r.Failure? <==> source.None?
    ensures r.Success? ==> && r.value.count <= |source.value|
                           && |r.value.store.movies| == |s.movies| + r.value.count
                           && r.value.store.movies[..|s.movies|] == s.movies
  {
    match source
    case None => Failure(SourceUnavailable)
    case Some(lines) => Success(ImportLinesAsWritten(s, lines, line => ParseLine(line, parseDouble)))
  }

  /** The counterexample for the import: a line whose record is valid
      except for a NaN rating (for example `Dune,Sci-Fi,1984,NaN,137,true`,
      since `Double.parseDouble("NaN")` succeeds) is imported and counted as
      written, leaving an invalid record in the store; the corrected import
      skips it. */
  lemma ImportAsWrittenCountsNaN(s: Store, line: string, parse: string -> Option<Movie>)
    requires parse(line).Some?
    requires var m := parse(line).value;
             PresentText(Some(m.title)) && PresentText(Some(m.genre)) && m.year >= MinYear && m.duration > 0
    requires parse(line).value.rating == NaN
    ensures ImportLinesAsWritten(s, [line], parse) == ImportResult(Store(s.movies + [parse(line).value]), 1)
    ensures !Valid(ImportLinesAsWritten(s, [line], parse).store)
    ensures ImportLines(s, [line], parse) == ImportResult(s, 0)
  {
    var m := parse(line).value;
    NaNPassesEveryBound(MinRating, MaxRating);
    assert ValidMovieAsWritten(m);
    assert [line][1..] == [];
    var after := Store(s.movies + [m]);
    assert after.movies[|s.movies|] == m;
  }

  /** Away from NaN ratings, the corrected import is the import the source
      wrote, line for line. */
  lemma {:induction false} ImportLinesAgreeOutsideNaN(s: Store, lines: seq<string>, parse: string -> Option<Movie>)
    requires forall i :: 0 <= i < |lines| && parse(lines[i]).Some? ==> parse(lines[i]).value.rating != NaN
    ensures ImportLinesAsWritten(s, lines, parse) == ImportLines(s, lines, parse)
    decreases |lines|
  {
    if |lines| > 0 {
      if parse(lines[0]).Some? {
        GuardsAgreeOutsideNaN(parse(lines[0]).value.rating);
      }
      assert ImportLineAsWritten(s, lines[0], parse) == ImportLine(s, lines[0], parse);
      var next := ImportLine(s, lines[0], parse).store;
      assert forall i :: 0 <= i < |lines[1..]| ==> lines[1..][i] == lines[i + 1];
      ImportLinesAgreeOutsideNaN(next, lines[1..], parse);
    }
  }
}

=== FILE: scenarios.dfy ===
/** Concrete runs of the store on small inputs. */
module Scenarios {
  import opened Optional
  import opened JavaNumbers
  import opened JavaStrings
  import opened Movies
  import opened MovieManager
  import opened MovieImport

  const Dune: Movie := Movie("Dune", "Sci-Fi", 1984, Finite(8.0), 137, true)
  const Matrix: Movie := Movie("Matrix", "Sci-Fi", 1999, Finite(8.7), 136, true)
  const OldDune: Movie := Dune.(year := 1700)

  /** Creating "Dune" succeeds and the record is found as "dune". */
  lemma CreateThenFindOtherCase()
    ensures CreateMovie(Empty, Some("Dune"), Some("Sci-Fi"), 1984, Finite(8.0), 137, true).ok
    ensures FindMovie(CreateMovie(Empty, Some("Dune"), Some("Sci-Fi"), 1984, Finite(8.0), 137, true).store, Some("dune"))
         == Some(Dune)
  {
    assert !IsWhitespace("Dune"[0]) && !IsWhitespace("Sci-Fi"[0]);
    var r := CreateMovie(Empty, Some("Dune"), Some("Sci-Fi"), 1984, Finite(8.0), 137, true);
    assert r.store.movies == [Dune];
    assert TitleMatches(Dune, Some("dune"));
  }

  /** Blank, null or out-of-range arguments are refused and leave the
      store as it was. */
  lemma CreateRefusals(s: Store)
    ensures CreateMovie(s, Some("  "), Some("Sci-Fi"), 1984, Finite(8.0), 137, true) == Response(s, false)
    ensures CreateMovie(s, None, Some("Sci-Fi"), 1984, Finite(8.0), 137, true) == Response(s, false)
    ensures CreateMovie(s, Some("Dune"), Some(""), 1984, Finite(8.0), 137, true) == Response(s, false)
    ensures CreateMovie(s, Some("Dune"), Some("Sci-Fi"), 1799, Finite(8.0), 137, true) == Response(s, false)
    ensures CreateMovie(s, Some("Dune"), Some("Sci-Fi"), 1984, Finite(10.5), 137, true) == Response(s, false)
    ensures CreateMovie(s, Some("Dune"), Some("Sci-Fi"), 1984, Finite(-0.5), 137, true) == Response(s, false)
    ensures CreateMovie(s, Some("Dune"), Some("Sci-Fi"), 1984, Finite(8.0), 0, true) == Response(s, false)
  {
  }

  /** Two records with the same title coexist; update touches only the
      first, delete removes both. */
  lemma DuplicatesUpdateFirstDeleteAll()
    ensures var twice := Store([Dune, Dune.(rating := Finite(5.0))]);
            && UpdateMovie(twice, Some("DUNE"), Some("Drama"), 2000, Finite(6.0), 120, false).store.movies
               == [Movie("Dune", "Drama", 2000, Finite(6.0), 120, false), Dune.(rating := Finite(5.0))]
            && DeleteMovie(twice, Some("DUNE")) == Response(Empty, true)
  {
    var twice := Store([Dune, Dune.(rating := Finite(5.0))]);
    assert !IsWhitespace("Drama"[0]);
    assert TitleMatches(Dune, Some("DUNE"));
    assert FirstMatch(twice.movies, Some("DUNE")) == Some(0);
    assert twice.movies[1..] == [Dune.(rating := Finite(5.0))];
    assert TitleMatches(twice.movies[1], Some("DUNE"));
    assert RemoveMatching(twice.movies[1..][1..], Some("DUNE")) == [];
    assert RemoveMatching(twice.movies[1..], Some("DUNE")) == [];
  }

  /** Updating an absent title fails whatever the new fields; a year of
      1799 fails and leaves the matched record as it was. */
  lemma UpdateRefusals(s: Store)
    ensures UpdateMovie(Store([Dune]), Some("Alien"), Some("Horror"), 1979, Finite(8.5), 117, true)
         == Response(Store([Dune]), false)
    ensures UpdateMovie(Store([Dune]), Some("dune"), Some("Drama"), 1799, Finite(8.0), 137, true)
         == Response(Store([Dune]), false)
    ensures UpdateMovie(s, None, Some("Drama"), 2000, Finite(8.0), 137, true) == Response(s, false)
  {
    assert !EqualsIgnoreCase("Dune", "Alien");
  }

  /** Deleting "DUNE" removes the record inserted as "Dune"; deleting a
      title that is absent reports false. */
  lemma DeleteOtherCase()
    ensures DeleteMovie(Store([Dune, Matrix]), Some("DUNE")) == Response(Store([Matrix]), true)
    ensures DeleteMovie(Store([Matrix]), Some("Dune")) == Response(Store([Matrix]), false)
  {
    assert TitleMatches(Dune, Some("DUNE"));
    assert !TitleMatches(Matrix, Some("DUNE"));
    assert !TitleMatches(Matrix, Some("Dune"));
    assert [Dune, Matrix][1..] == [Matrix];
  }

  /** Durations 100 and 150 average to 125; an empty store averages 0. */
  method AverageExample() returns (empty: real, avg: real)
    ensures empty == 0.0
    ensures avg == 125.0
  {
    empty := AverageDuration(Empty);
    var s := Store([Dune.(duration := 100), Matrix.(duration := 150)]);
    assert TotalDuration(s.movies) == 250 by {
      assert s.movies[..1] == [Dune.(duration := 100)];
      assert s.movies[..1][..0] == [];
      assert TotalDuration(s.movies[..1]) == 100;
    }
    avg := AverageDuration(s);
  }

  /** Both sample records satisfy the store invariant. */
  lemma SamplesValid()
    ensures ValidMovie(Dune) && ValidMovie(Matrix)
    ensures !ValidMovie(OldDune)
  {
    assert !IsWhitespace("Dune"[0]) && !IsWhitespace("Sci-Fi"[0]) && !IsWhitespace("Matrix"[0]);
  }

  /** Four lines in a file: a good record, a line that does not parse, a
      record from 1700 and another good record. Two are imported, in
      file order, and the count is 2. */
  lemma ImportFourLines(good: string, broken: string, early: string, other: string,
                        parse: string -> Option<Movie>)
    requires parse(good) == Some(Dune)
    requires parse(broken) == None
    requires parse(early) == Some(OldDune)
    requires parse(other) == Some(Matrix)
    ensures ImportLines(Empty, [good, broken, early, other], parse) == ImportResult(Store([Dune, Matrix]), 2)
  {
    SamplesValid();
    AcceptedOfFour(good, broken, early, other, parse, Dune, Matrix);
    ImportAppendsAccepted(Empty, [good, broken, early, other], parse);
  }

  /** The sample texts hold no comma and nothing `trim` strips. */
  lemma SampleTextsTight()
    ensures CommaFree("Dune") && TrimTight("Dune") && CommaFree("Matrix") && TrimTight("Matrix")
    ensures CommaFree("Sci-Fi") && TrimTight("Sci-Fi")
    ensures CommaFree("8.0") && TrimTight("8.0") && CommaFree("8.7") && TrimTight("8.7")
  {
  }

  /** Three pieces joined by commas. */
  lemma JoinThree(a: string, b: string, c: string)
    ensures Join([a, b, c]) == a + "," + b + "," + c
  {
    assert Join([b, c]) == b + "," + c by {
      assert [b, c][1..] == [c];
    }
    assert [a, b, c][1..] == [b, c];
  }

  /** A line of three comma-free fields, with nothing for `trim` to strip
      at its ends, is skipped for its field count. */
  lemma ThreeFieldLineSkipped(a: string, b: string, c: string, parseDouble: string -> Option<Double>)
    requires |a| > 0 && !Trimmable(a[0]) && |c| > 0 && !Trimmable(c[|c| - 1])
    requires CommaFree(a) && CommaFree(b) && CommaFree(c)
    ensures ParseLine(Join([a, b, c]), parseDouble) == None
    ensures AcceptedLine(Join([a, b, c]), line => ParseLine(line, parseDouble)) == []
  {
    var line := Join([a, b, c]);
    JoinThree(a, b, c);
    assert line[0] == a[0] && line[|line| - 1] == c[|c| - 1];
    TrimKeepsTrimmed(line);
    SplitOnCommaJoin([a, b, c]);
    ParseLineMeaning(line, parseDouble);
  }

  /** A record and a rating text that a written line carries back
      unchanged through the parser. */
  predicate ReadsBack(m: Movie, ratingText: string, parseDouble: string -> Option<Double>)
  {
    && |m.title| > 0 && CommaFree(m.title) && TrimTight(m.title)
    && CommaFree(m.genre) && TrimTight(m.genre)
    && CommaFree(ratingText) && TrimTight(ratingText)
    && parseDouble(ratingText) == Some(m.rating)
  }

  /** Four lines whose per-line outcomes are: accepted, skipped, skipped,
      accepted; the import keeps the two accepted records in order. */
  lemma AcceptedOfFour(l0: string, l1: string, l2: string, l3: string,
                       parse: string -> Option<Movie>, x: Movie, y: Movie)
    requires AcceptedLine(l0, parse) == [x] && AcceptedLine(l1, parse) == []
    requires AcceptedLine(l2, parse) == [] && AcceptedLine(l3, parse) == [y]
    ensures Accepted([l0, l1, l2, l3], parse) == [x, y]
  {
    assert Accepted([l3], parse) == [y] by {
      assert [l3][1..] == [];
    }
    assert Accepted([l2, l3], parse) == [y] by {
      assert [l2, l3][1..] == [l3];
    }
    assert Accepted([l1, l2, l3], parse) == [y] by {
      assert [l1, l2, l3][1..] == [l2, l3];
    }
    assert [l0, l1, l2, l3][1..] == [l1, l2, l3];
    assert Accepted([l0, l1, l2, l3], parse) == [x] + [y];
  }

  /** A written line is accepted exactly when its record is valid, and
      then contributes that record. */
  lemma WrittenLineOutcome(m: Movie, ratingText: string, parseDouble: string -> Option<Double>)
    requires ReadsBack(m, ratingText, parseDouble)
    ensures AcceptedLine(FormatLine(m, ratingText), line => ParseLine(line, parseDouble))
         == if ValidMovie(m) then [m] else []
  {
    ParseFormatLine(m, ratingText, parseDouble);
  }

  /** The lines of a small file: a record written out, a line with three
      fields, a second record written out, and a third written out. */
  function FourLines(first: Movie, early: Movie, second: Movie,
                     firstRating: string, earlyRating: string, secondRating: string,
                     a: string, b: string, c: string): seq<string>
  {
    [FormatLine(first, firstRating), Join([a, b, c]), FormatLine(early, earlyRating), FormatLine(second, secondRating)]
  }

  /** With the real line parser, the file accepts the two valid records
      and skips the three-field line and the record from before 1800. */
  lemma FourLinesAccepted(first: Movie, early: Movie, second: Movie,
                          firstRating: string, earlyRating: string, secondRating: string,
                          a: string, b: string, c: string, parseDouble: string -> Option<Double>)
    requires ValidMovie(first) && ValidMovie(second) && early.year < MinYear
    requires ReadsBack(first, firstRating, parseDouble)
    requires ReadsBack(early, earlyRating, parseDouble)
    requires ReadsBack(second, secondRating, parseDouble)
    requires |a| > 0 && !Trimmable(a[0]) && |c| > 0 && !Trimmable(c[|c| - 1])
    requires CommaFree(a) && CommaFree(b) && CommaFree(c)
    ensures Accepted(FourLines(first, early, second, firstRating, earlyRating, secondRating, a, b, c),
                     line => ParseLine(line, parseDouble))
         == [first, second]
  {
    WrittenLineOutcome(first, firstRating, parseDouble);
    WrittenLineOutcome(early, earlyRating, parseDouble);
    WrittenLineOutcome(second, secondRating, parseDouble);
    ThreeFieldLineSkipped(a, b, c, parseDouble);
    AcceptedOfFour(FormatLine(first, firstRating), Join([a, b, c]), FormatLine(early, earlyRating),
                   FormatLine(second, secondRating), line => ParseLine(line, parseDouble), first, second);
  }

  /** Loading that file imports the two valid records, in file order, and
      returns 2. */
  lemma LoadFourWrittenLines(first: Movie, early: Movie, second: Movie,
                             firstRating: string, earlyRating: string, secondRating: string,
                             a: string, b: string, c: string, parseDouble: string -> Option<Double>)
    requires ValidMovie(first) && ValidMovie(second) && early.year < MinYear
    requires ReadsBack(first, firstRating, parseDouble)
    requires ReadsBack(early, earlyRating, parseDouble)
    requires ReadsBack(second, secondRating, parseDouble)
    requires |a| > 0 && !Trimmable(a[0]) && |c| > 0 && !Trimmable(c[|c| - 1])
    requires CommaFree(a) && CommaFree(b) && CommaFree(c)
    ensures LoadFromFile(Empty, Some(FourLines(first, early, second, firstRating, earlyRating, secondRating, a, b, c)),
                         parseDouble)
         == Success(ImportResult(Store([first, second]), 2))
  {
    var lines := FourLines(first, early, second, firstRating, earlyRating, secondRating, a, b, c);
    FourLinesAccepted(first, early, second, firstRating, earlyRating, secondRating, a, b, c, parseDouble);
    var r := LoadFromFile(Empty, Some(lines), parseDouble);
    assert r.value.store.movies == [first, second] by {
      assert Empty.movies + [first, second] == [first, second];
    }
  }

  /** A small file: "Dune" written with rating text "8.0", the line of
      three fields BadLine, OnlyThreeFields and 1999, "Dune" dated 1700, and
      "Matrix" written with rating text "8.7". Read with the real line
      parser and a `parseDouble` that reads "8.0" and "8.7", it loads
      "Dune" and "Matrix" and returns 2. */
  lemma LoadSampleFile(parseDouble: string -> Option<Double>)
    requires parseDouble("8.0") == Some(Finite(8.0)) && parseDouble("8.7") == Some(Finite(8.7))
    ensures LoadFromFile(Empty, Some(FourLines(Dune, OldDune, Matrix, "8.0", "8.0", "8.7",
                                               "BadLine", "OnlyThreeFields", "1999")), parseDouble)
         == Success(ImportResult(Store([Dune, Matrix]), 2))
  {
    SamplesValid();
    SampleTextsTight();
    assert ReadsBack(Dune, "8.0", parseDouble) && ReadsBack(OldDune, "8.0", parseDouble);
    assert ReadsBack(Matrix, "8.7", parseDouble);
    assert CommaFree("BadLine") && CommaFree("OnlyThreeFields") && CommaFree("1999");
    LoadFourWrittenLines(Dune, OldDune, Matrix, "8.0", "8.0", "8.7", "BadLine", "OnlyThreeFields", "1999", parseDouble);
  }
}
